=== FILE: README.md ===
# Digital-maturity diagnostic: a verified model of its decision rules

The application is a Flask/SQLite tool. A company signs in and answers
four questions on each of ten digital-maturity axes ("ejes"). For each
axis it gets a score and a recommendation. A consultant can then download
a client report and a consulting plan. This project models the rules the
application applies between its I/O, and proves properties about them:

- **Scoring** (`scoring.dfy`, `calcular_puntaje`). A Likert answer adds
  its value. A yes/no answer adds 5 for `"si"` and 1 for anything else.
  Answers of any other kind are skipped. The score is the average, rounded
  the way Python's `round` does it (ties go to the even integer). The
  score is 1 when nothing was counted. The model uses exact integer
  arithmetic.
- **Recommendation** (`recommendation.dfy`, `generar_recomendaciones`).
  The score selects one of three levels. The result is the generator's
  reply marked `*G`, when the reply exists and is longer than 200
  characters once stripped. Otherwise it is the catalogue entry for the
  axis and level, marked `*P`. The generator is an input of type
  `Option<string>`.
- **Consulting plan** (`consulting.dfy`, `generar_pdf_consultoria` and
  `generar_cronograma_consultoria`). The free-text company size is
  normalised into four classes. The maturity percentage `20·sum/n` falls
  into one of three stages. The size and stage choose the scope, duration
  and schedule. The three lowest-scoring axes are the priorities.
- **Store** (`store.dfy`, `evaluar_eje`, `guardar_objetivos`,
  `eliminar_usuario` and the report routes). Submitting an axis deletes
  the user's earlier row for that axis and inserts the new one. Saving
  the goals updates or inserts them. Deleting a user removes their rows
  from all three tables. The client report and the consulting plan need
  at least three evaluations.
- **Login form** (`login.dfy`, `static/js/main.js`). This covers the
  email regular expression `^[^\s@]+@[^\s@]+\.[^\s@]+$` and the three
  field checks of the login form.

Supporting modules:

- `wrappers.dfy` defines `Option` and `Result`.
- `text.dfy` defines the string helpers: Python `strip` and JavaScript
  `trim` (each with its own whitespace set), substring search, character
  counting and the UTF-16 length JavaScript reports.
- `tables.dfy` defines the row types of the three tables.

The catalogue fallback has two dead ends in the code. An id outside 1..10
raises when the axis name is looked up (app.py:236). The last branch
(app.py:405) reads `recomendaciones_genericas`, which is defined nowhere,
so it would raise too. The model returns `Failure(UnknownAxis)` and
`Failure(NoGenericRecommendation)` for these, and `Recommend`'s contract
proves that no valid axis reaches the second.

The company size column may be NULL: it was added to existing databases
by `ALTER TABLE` (app.py:191), and login stores whatever `tamano_empresa`
the request carries, possibly none (app.py:420). The consulting plan then
fails in the code, because `"Microempresa" in None` raises (app.py:1209). The model keeps the size as
an `Option<string>` and returns `Failure(MissingCompanySize)`.

## Model

| member | source | states |
|---|---|---|
| Scoring.Score | app.py:223-233 | With no Likert or yes/no answer the score is 1; otherwise it is the integer nearest to total/count, a tie going to the even neighbour |
| Scoring.RoundHalfEven | app.py:233 | The result is within half a unit of num/den, and on an exact tie it is the even neighbour |
| Scoring.RoundHalfEvenIff | app.py:233 | The rounding computed by division and remainder is exactly the one value within half a unit of the quotient, ties broken to even |
| Scoring.RoundHalfEvenUnique | app.py:233 | At most one integer is the half-to-even rounding of a quotient |
| Scoring.TiesRoundToEven | app.py:233 | Answers 3 and 2 score 2 and answers 3 and 4 score 4: ties go to the even integer, not upwards |
| Scoring.ScoreInRange | app.py:223-233 | If every Likert value is between 1 and 5, the score is between 1 and 5 |
| Scoring.UniformScore | app.py:223-233 | If at least one answer is counted and every counted answer contributes the same value v, the score is v |
| Scoring.OtherKindIgnored | app.py:226-232 | Inserting an answer of any kind other than Likert or yes/no anywhere leaves the score unchanged |
| Scoring.NonAffirmativeIsNo | app.py:230-231 | A yes/no answer other than "si" scores exactly like "no" |
| Scoring.TotalCountedAppend | app.py:226-232 | The total and the count of a concatenation are the sums of the parts' totals and counts |
| Recommendation.LevelOf | app.py:243-262 | Scores up to 2 are the initial level, exactly 3 consolidation, 4 and above advanced, each an if-and-only-if |
| Recommendation.ChainsAgree | app.py:243-262 | The focus chain and the catalogue-key chain name the same level for every score |
| Recommendation.LevelMonotone | app.py:243-262 | A higher score never selects a lower level |
| Recommendation.CatalogComplete | app.py:265-316 | The catalogue has an entry for every axis 1..10 and each of the keys bajo, medio and alto |
| Recommendation.UsableReply | app.py:381 | A usable reply exists and has more than 200 characters; any reply of more than 200 characters that neither starts nor ends with whitespace is usable |
| Recommendation.Recommend | app.py:235-405 | An id outside 1..10 fails; a valid axis always succeeds; a usable reply gives `*G` plus the reply, otherwise `*P` plus the entry for the axis and the score's level |
| Recommendation.ProvenanceMarksSource | app.py:381-403 | The mark reads as generated exactly when the reply was usable and as predefined exactly when it was not; the text after the mark is the reply or the entry |
| Recommendation.FallbackDependsOnLevel | app.py:253-262 | Without a usable reply, two calls on one axis give the same text if and only if their scores fall in the same level |
| Recommendation.LongReplyScenario | app.py:381-386 | A reply of more than 200 characters without surrounding whitespace is returned with the `*G` mark |
| Recommendation.CybersecurityAllLowScenario | app.py:402-403 | Axis 9 ("Ciberseguridad Inicial" in the axis list) answered with Likert 1, 1 and two "no" scores 1 and, with no reply, gets the `*P` low-level entry of catalogue entry 9, whichever topic that entry's prose covers |
| Recommendation.StrategyAllHighScenario | app.py:402-403 | Axis 1 answered with four Likert 5 scores 5 and, with no reply, gets the `*P` high-level entry |
| Consulting.NormalizeSize | app.py:1207-1216 | The class is Micro iff "Microempresa" occurs, Small iff it does not and "Peque" does, Medium iff neither does and "Mediana" does, Large iff none of the three occurs |
| Consulting.NormalizeSizeName | app.py:1207-1216 | Normalising the name of a class gives that class back, so normalisation is idempotent |
| Consulting.StageOf | app.py:1203-1270 | The stage is initial iff 2·sum ≤ 3·n (percentage at most 30), development iff 3·n < 2·sum and sum ≤ 3·n (above 30, at most 60), optimisation iff 3·n < sum (above 60) |
| Consulting.EngagementLabel | app.py:1218-1270 | Each of the twelve stage labels is the stage's word, " - ", then the size's label, so the label names both the stage and the size it was chosen for |
| Consulting.Schedule | app.py:1128-1195 | The schedule has 3 rows for "Microempresa" and 4 otherwise, and for each normalised size name it is the table entry of that size and the stage of the percentage |
| Consulting.ScheduleFollowsStage | app.py:1128-1195 | For one size, two percentages get the same schedule iff they fall in the same stage |
| Consulting.MediumAndLargeShareSchedule | app.py:1172-1193 | "Mediana" and "Grande" get the same schedule |
| Consulting.SortByScore | app.py:1273 | The result is sorted by score, a permutation of the input, and stable: for every score, the rows with that score keep their input order |
| Consulting.CriticalAxes | app.py:1273 | The priorities are min(3, n) input rows in increasing score, no row left out scores below a chosen one, and among equal scores the earliest input rows are the ones chosen, in input order |
| Consulting.PlanFor | app.py:1197-1273 | The plan's class is the normalised size, its stage follows the integer brackets, its engagement and schedule are the table entries for that class and stage, and its priorities are min(3, n) sorted rows taken from the evaluations, lowest first, earliest first among equal scores |
| Store.ReplaceEvaluation | app.py:1445-1452 | After the delete and insert, (user, axis) holds exactly the new row, every other key and every other user keep their rows, the user's rows are their earlier rows in order without the replaced axis followed by the new row, and at most one row per key stays so |
| Store.EvaluateAxis | app.py:1428-1463 | Without a session, or with an unknown axis, nothing is stored and an error is returned; otherwise the score and recommendation are returned, the table is the delete-and-insert replacement, only the submitted key changes, the new row becomes the user's last, and every other user's rows keep their order |
| Store.ResubmitKeepsLatest | app.py:1445-1452 | Submitting one axis twice leaves a single row holding the second answers, and the user's row count stays the same |
| Store.UpsertGoals | app.py:578-594 | Afterwards the user has at least one goals row, all holding the new goals, a new row only when there was none, and no other user's goals change |
| Store.SaveGoals | app.py:564-599 | Without a session it fails; with one it fails iff the stripped first goal is empty, and otherwise succeeds; failures change nothing; success upserts the stripped goals |
| Store.DeleteUser | app.py:713-716 | The user, their evaluations and their goals are gone; every other user's row, evaluations and goals are unchanged |
| Store.ReportGate | app.py:627-661 | The report is produced iff the user exists and has at least three evaluations, from exactly that user's evaluations; an unknown user, no evaluation, and one or two evaluations (with their count) are three distinct errors |
| Store.ConsultingPlan | app.py:664-702 | Gate failures pass through; a missing company size fails; the plan is produced iff the user exists, has at least three evaluations and a size; it then carries the normalised size, the stage of the user's scores, the table entries, and three of the user's own rows, sorted, lowest first and earliest first among equal scores |
| Text.PyStrip | app.py:570-572 | The result is a piece of the input with only Python whitespace before and after it, neither starts nor ends with Python whitespace, and is empty iff the input is all Python whitespace |
| Text.JsTrim | static/js/main.js:104-110 | The result is a piece of the input with only JavaScript whitespace before and after it, neither starts nor ends with JavaScript whitespace, and is empty iff the input is all JavaScript whitespace |
| Text.SpaceAroundUnique | app.py:570-572 | Two pieces of a string that have only whitespace around them and neither start nor end with whitespace are equal, so the strip contracts determine the result |
| Text.Utf16Length | static/js/main.js:104-110 | JavaScript's `.length` counts UTF-16 code units: between the character count and twice it, equal to the character count iff every character is in the Basic Multilingual Plane, and twice it iff none is |
| Text.ContainsIffOccurs | app.py:1209-1214 | Python's `t in s` holds iff `t` occurs in `s` at some position |
| Text.SpaceSets | app.py:570-572 | Within ASCII, Python's whitespace is the blank, tab to carriage return and 0x1C-0x1F; JavaScript's set is Python's without 0x1C-0x1F and 0x85, plus 0xFEFF |
| LoginForm.ValidateEmail | static/js/main.js:64-67 | True iff the text splits into non-empty parts "local@host.suffix" without whitespace or further '@' |
| LoginForm.ChecksIffPattern | static/js/main.js:65-66 | The pattern holds iff there is no whitespace, exactly one '@', something before it, and a '.' after it with a character on each side |
| LoginForm.EmailRejections | static/js/main.js:65-66 | Any text with whitespace, or without exactly one '@', is rejected |
| LoginForm.EmailExamples | static/js/main.js:64-67 | "ana@empresa.co" is accepted |
| LoginForm.ValidateLoginForm | static/js/main.js:97-113 | At most three messages in the order email, name, type; each present iff its field is missing or fails its check; empty iff all pass |
| LoginForm.FieldsIndependent | static/js/main.js:98-112 | Each field decides only its own message |
| LoginForm.BlankNameRejected | static/js/main.js:104-106 | A company name made only of whitespace is rejected |
| LoginForm.ErrorMessages | static/js/main.js:97-113 | One text per failed check, in the order email, name, type (at most three); each of the three texts the form pushes is present iff its check fails |
| LoginForm.MessagesDistinct | static/js/main.js:101-110 | The three texts are pairwise different, so each names its own check |

## Left out

- Flask routing, JSON request parsing and the consultant identity check are not modelled. The routes' decisions are functions of a session parameter (`Option<UserId>`) and the request values.
- SQLite connections, `init_db`, and backup and restore are not modelled. The database is an immutable value with a map of users and sequences of evaluation and goal rows.
- Timestamps, row ids and the JSON encoding of stored answers are not modelled. They play no part in any decision modelled here.
- Row order: tables are sequences in insertion order, and a user's rows are read in that order. The SELECTs of the report routes (app.py:645, app.py:682) have no ORDER BY, so SQLite does not promise this order; it is what a plain rowid table scan gives. The tie-break among equal scores in the consulting priorities rests on it.
- The generator client and the network call are not modelled. The reply is an input: `None` stands for no client, an exception, or no text.
- The prompt text is not modelled, and neither is the company type and size it embeds. They never reach the predefined fallback, so `Recommend` takes no profile parameter.
- The catalogue prose is replaced by a distinct placeholder string per (axis, level), keyed by axis id as the code keys it. The catalogue's comments name other topics than the axis list does (entry 1 is commented "Cultura Digital Empresarial" at app.py:266, while axis 1 is "Estrategia Digital" at app.py:62), so the prose a user sees may not match the axis; placeholders cannot show this.
- The `int()` conversion of Likert values and JSON `null` in request bodies are not modelled. A Likert answer already carries an integer, and malformed answers raise in the application.
- Floating point is not modelled. `total / count` and `(sum / n) / 5 * 100` are modelled exactly over the integers. For the question counts the application uses, the float results agree with this.
- The reportlab PDF layout is not modelled, including the "Alta/Media/Baja" priority labels and the schedule's activity text.
- The "Microempresa" text replacements in the generated plan are not modelled.
- `generar_informe_ejecutivo`, `generar_resumen_ejecutivo` and the readiness canvas are not part of this model. The summary's fallback text indexes the third priority axis even though its route only requires one evaluation.
- The DOM code of `main.js` is not modelled: toasts, progress, date formatting and debounce.
- `setup.py`, `build_exe.py` and `config.py` are packaging and configuration, and are not modelled.

=== FILE: consulting.dfy ===
/** The consulting plan (`generar_pdf_consultoria` and
    `generar_cronograma_consultoria`): company size class, maturity stage,
    engagement, schedule and the three priority axes. */
module Consulting {
  import opened Text
  import opened Tables

  datatype SizeClass = Micro | Small | Medium | Large

  const MicroName := "Microempresa"
  const SmallName := "Peque\U{F1}a"
  const SmallStem := "Peque"
  const MediumName := "Mediana"
  const LargeName := "Grande"

  /** Normalisation of the free-text company size by substring tests, the
      first test that matches deciding: the class is decided by the first
      of "Microempresa", "Peque" and "Mediana" that occurs. The test for
      "Pequeña" adds nothing, since "Peque" is a prefix of it. */
  function NormalizeSize(size: string): (c: SizeClass)
    ensures c == Micro <==> Contains(size, MicroName)
    ensures c == Small <==> !Contains(size, MicroName) && Contains(size, SmallStem)
    ensures c == Medium <==>
      !Contains(size, MicroName) && !Contains(size, SmallStem) && Contains(size, MediumName)
    ensures c == Large <==>
      !Contains(size, MicroName) && !Contains(size, SmallStem) && !Contains(size, MediumName)
  {
    StemOfSmallName(size);
    if Contains(size, MicroName) then Micro
    else if Contains(size, SmallName) || Contains(size, SmallStem) then Small
    else if Contains(size, MediumName) then Medium
    else Large
  }

  /** A size that names "Pequeña" also contains "Peque". */
  lemma StemOfSmallName(size: string)
    ensures Contains(size, SmallName) ==> Contains(size, SmallStem)
  {
    if Contains(size, SmallName) {
      ContainsPrefix(size, SmallName, SmallStem);
    }
  }

  /** The normalised size as the application writes it. */
  function SizeName(c: SizeClass): string {
    match c
    case Micro => MicroName
    case Small => SmallName
    case Medium => MediumName
    case Large => LargeName
  }

  /** Normalising a normalised name gives back its class, so
      normalisation is idempotent. */
  lemma NormalizeSizeName(c: SizeClass)
    ensures NormalizeSize(SizeName(c)) == c
  {
    match c
    case Micro =>
      assert StartsWith(MicroName, MicroName);
    case Small =>
      NotContainsLonger(SmallName, MicroName);
      assert StartsWith(SmallName, SmallStem);
    case Medium =>
      NotContainsLonger(MediumName, MicroName);
      NotContainsFirstChar(MediumName, SmallStem);
      NotContainsFirstChar(MediumName, SmallName);
      assert StartsWith(MediumName, MediumName);
    case Large =>
      NotContainsLonger(LargeName, MicroName);
      NotContainsLonger(LargeName, MediumName);
      NotContainsFirstChar(LargeName, SmallStem);
      NotContainsFirstChar(LargeName, SmallName);
  }

  datatype Stage = Initial | Development | Optimisation

  /** The maturity percentage `(sum / n) / 5 * 100`, that is `20 * sum / n`,
      is at most `bound`. */
  predicate PercentAtMost(sum: int, n: int, bound: int)
    requires n > 0
  {
    20 * sum <= bound * n
  }

  /** The stage bracket of the maturity percentage: up to 30, up to 60,
      above. In whole numbers: Initial when `2 * sum <= 3 * n`, Development
      when `3 * n < 2 * sum` and `sum <= 3 * n`, else Optimisation; so an
      average of 1.5 is still Initial and an average of 3 is still
      Development. */
  function StageOf(sum: int, n: int): (st: Stage)
    requires n > 0
    ensures st == Initial <==> 2 * sum <= 3 * n
    ensures st == Development <==> 3 * n < 2 * sum && sum <= 3 * n
    ensures st == Optimisation <==> 3 * n < sum
  {
    if PercentAtMost(sum, n, 30) then Initial
    else if PercentAtMost(sum, n, 60) then Development
    else Optimisation
  }

  /** The first word of the stage label. */
  function StageWord(st: Stage): string {
    match st
    case Initial => "Inicial"
    case Development => "Desarrollo"
    case Optimisation => "Optimizaci\U{F3}n"
  }

  /** How the stage label names the company size. */
  function SizeLabel(c: SizeClass): string {
    match c
    case Micro => MicroName
    case Small => SmallName + " Empresa"
    case Medium => MediumName + " Empresa"
    case Large => "Gran Empresa"
  }

  /** The stage label, suggested scope and estimated duration. */
  datatype Engagement = Engagement(stageName: string, scope: string, duration: string)

  /** The twelve-way table of stage label, scope and duration. */
  function EngagementFor(c: SizeClass, st: Stage): Engagement {
    match (c, st)
    case (Micro, Initial) =>
      Engagement("Inicial - Microempresa", "B\U{E1}sico (Herramientas esenciales)", "2 - 4 semanas")
    case (Micro, Development) =>
      Engagement("Desarrollo - Microempresa", "Intermedio (Digitalizaci\U{F3}n b\U{E1}sica)", "1 - 2 meses")
    case (Micro, Optimisation) =>
      Engagement("Optimizaci\U{F3}n - Microempresa", "Avanzado (Automatizaci\U{F3}n selectiva)", "2 - 3 meses")
    case (Small, Initial) =>
      Engagement("Inicial - Peque\U{F1}a Empresa", "Estructurado (Bases s\U{F3}lidas)", "6 - 10 semanas")
    case (Small, Development) =>
      Engagement("Desarrollo - Peque\U{F1}a Empresa", "Integral (Sistemas integrados)", "3 - 5 meses")
    case (Small, Optimisation) =>
      Engagement("Optimizaci\U{F3}n - Peque\U{F1}a Empresa", "Avanzado (IA y automatizaci\U{F3}n)", "4 - 6 meses")
    case (Medium, Initial) =>
      Engagement("Inicial - Mediana Empresa", "Completo (Transformaci\U{F3}n integral)", "3 - 4 meses")
    case (Medium, Development) =>
      Engagement("Desarrollo - Mediana Empresa", "Estrat\U{E9}gico (Ventaja competitiva)", "5 - 8 meses")
    case (Medium, Optimisation) =>
      Engagement("Optimizaci\U{F3}n - Mediana Empresa", "Innovaci\U{F3}n (Liderazgo digital)", "6 - 10 meses")
    case (Large, Initial) =>
      Engagement("Inicial - Gran Empresa", "Empresarial (Transformaci\U{F3}n completa)", "4 - 6 meses")
    case (Large, Development) =>
      Engagement("Desarrollo - Gran Empresa", "Estrat\U{E9}gico (Ecosistema digital)", "8 - 12 meses")
    case (Large, Optimisation) =>
      Engagement("Optimizaci\U{F3}n - Gran Empresa", "Innovaci\U{F3}n (Disrupci\U{F3}n digital)", "10 - 18 meses")
  }

  /** Every stage label names the stage and then the size. */
  lemma EngagementLabel(c: SizeClass, st: Stage)
    ensures EngagementFor(c, st).stageName == StageWord(st) + " - " + SizeLabel(c)
  {
    match st
    case Initial => InitialLabels(c);
    case Development => DevelopmentLabels(c);
    case Optimisation => OptimisationLabels(c);
  }

  lemma InitialLabels(c: SizeClass)
    ensures EngagementFor(c, Initial).stageName == StageWord(Initial) + " - " + SizeLabel(c)
  {
    match c
    case Micro => assert "Inicial" + " - " + MicroName == "Inicial - Microempresa";
    case Small => assert "Inicial" + " - " + (SmallName + " Empresa") == "Inicial - Peque\U{F1}a Empresa";
    case Medium => assert "Inicial" + " - " + (MediumName + " Empresa") == "Inicial - Mediana Empresa";
    case Large => assert "Inicial" + " - " + "Gran Empresa" == "Inicial - Gran Empresa";
  }

  lemma DevelopmentLabels(c: SizeClass)
    ensures EngagementFor(c, Development).stageName == StageWord(Development) + " - " + SizeLabel(c)
  {
    match c
    case Micro => assert "Desarrollo" + " - " + MicroName == "Desarrollo - Microempresa";
    case Small => assert "Desarrollo" + " - " + (SmallName + " Empresa") == "Desarrollo - Peque\U{F1}a Empresa";
    case Medium => assert "Desarrollo" + " - " + (MediumName + " Empresa") == "Desarrollo - Mediana Empresa";
    case Large => assert "Desarrollo" + " - " + "Gran Empresa" == "Desarrollo - Gran Empresa";
  }

  lemma OptimisationLabels(c: SizeClass)
    ensures EngagementFor(c, Optimisation).stageName == StageWord(Optimisation) + " - " + SizeLabel(c)
  {
    match c
    case Micro => assert "Optimizaci\U{F3}n" + " - " + MicroName == "Optimizaci\U{F3}n - Microempresa";
    case Small =>
      assert "Optimizaci\U{F3}n" + " - " + (SmallName + " Empresa") == "Optimizaci\U{F3}n - Peque\U{F1}a Empresa";
    case Medium =>
      assert "Optimizaci\U{F3}n" + " - " + (MediumName + " Empresa") == "Optimizaci\U{F3}n - Mediana Empresa";
    case Large => assert "Optimizaci\U{F3}n" + " - " + "Gran Empresa" == "Optimizaci\U{F3}n - Gran Empresa";
  }

  /** One line of the schedule: its period and its phase. */
  datatype ScheduleRow = ScheduleRow(period: string, phase: string)

  /** The schedule table: a period and a phase per row, by size class and
      stage. Medium and large companies share one table. */
  function ScheduleFor(c: SizeClass, st: Stage): seq<ScheduleRow> {
    match c
    case Micro =>
      (match st
       case Initial =>
         [ ScheduleRow("Semana 1", "Diagn\U{F3}stico R\U{E1}pido"),
           ScheduleRow("Semana 2-3", "Implementaci\U{F3}n B\U{E1}sica"),
           ScheduleRow("Semana 4", "Seguimiento") ]
       case Development =>
         [ ScheduleRow("Semana 1-2", "An\U{E1}lisis y Estrategia"),
           ScheduleRow("Semana 3-6", "Implementaci\U{F3}n"),
           ScheduleRow("Semana 7-8", "Optimizaci\U{F3}n") ]
       case Optimisation =>
         [ ScheduleRow("Semana 1-2", "Estrategia Avanzada"),
           ScheduleRow("Semana 3-8", "Implementaci\U{F3}n Selectiva"),
           ScheduleRow("Semana 9-12", "Optimizaci\U{F3}n y Escalamiento") ])
    case Small =>
      (match st
       case Initial =>
         [ ScheduleRow("Semana 1-3", "Diagn\U{F3}stico Integral"),
           ScheduleRow("Semana 4-5", "Estrategia y Planificaci\U{F3}n"),
           ScheduleRow("Semana 6-8", "Implementaci\U{F3}n Fase 1"),
           ScheduleRow("Semana 9-10", "Consolidaci\U{F3}n") ]
       case Development =>
         [ ScheduleRow("Semana 1-4", "An\U{E1}lisis Estrat\U{E9}gico"),
           ScheduleRow("Semana 5-8", "Dise\U{F1}o e Integraci\U{F3}n"),
           ScheduleRow("Semana 9-16", "Implementaci\U{F3}n Gradual"),
           ScheduleRow("Semana 17-20", "Optimizaci\U{F3}n") ]
       case Optimisation =>
         [ ScheduleRow("Semana 1-3", "Innovaci\U{F3}n y Estrategia"),
           ScheduleRow("Semana 4-12", "Transformaci\U{F3}n Avanzada"),
           ScheduleRow("Semana 13-20", "Escalamiento"),
           ScheduleRow("Semana 21-24", "Excelencia Digital") ])
    case Medium | Large =>
      (match st
       case Initial =>
         [ ScheduleRow("Mes 1-2", "Diagn\U{F3}stico Empresarial"),
           ScheduleRow("Mes 3", "Estrategia de Transformaci\U{F3}n"),
           ScheduleRow("Mes 4-8", "Implementaci\U{F3}n Estructurada"),
           ScheduleRow("Mes 9-12", "Consolidaci\U{F3}n y Mejora") ]
       case Development =>
         [ ScheduleRow("Mes 1-2", "Estrategia Digital Avanzada"),
           ScheduleRow("Mes 3-6", "Transformaci\U{F3}n Integral"),
           ScheduleRow("Mes 7-10", "Escalamiento y Optimizaci\U{F3}n"),
           ScheduleRow("Mes 11-12", "Excelencia e Innovaci\U{F3}n") ]
       case Optimisation =>
         [ ScheduleRow("Mes 1-3", "Visi\U{F3}n de Futuro Digital"),
           ScheduleRow("Mes 4-8", "Implementaci\U{F3}n de Vanguardia"),
           ScheduleRow("Mes 9-14", "Escalamiento Global"),
           ScheduleRow("Mes 15-18", "Liderazgo e Impacto") ])
  }

  /** `generar_cronograma_consultoria`: the schedule for a maturity
      percentage and a normalised size name, compared as a string. It has
      three rows for "Microempresa" and four otherwise, and for the name of
      every size class it is that class's table at the percentage's stage. */
  function Schedule(sum: int, n: int, size: string): (r: seq<ScheduleRow>)
    requires n > 0
    ensures |r| == if size == MicroName then 3 else 4
    ensures forall c :: size == SizeName(c) ==> r == ScheduleFor(c, StageOf(sum, n))
  {
    var st := StageOf(sum, n);
    if size == MicroName then ScheduleFor(Micro, st)
    else if size == SmallName then ScheduleFor(Small, st)
    else ScheduleFor(Large, st)
  }

  /** For a given size the schedule follows the stage brackets exactly:
      two percentages get the same schedule iff they are in the same stage. */
  lemma ScheduleFollowsStage(sum1: int, n1: int, sum2: int, n2: int, c: SizeClass)
    requires n1 > 0 && n2 > 0
    ensures Schedule(sum1, n1, SizeName(c)) == Schedule(sum2, n2, SizeName(c))
        <==> StageOf(sum1, n1) == StageOf(sum2, n2)
  {
    var a := Schedule(sum1, n1, SizeName(c));
    var b := Schedule(sum2, n2, SizeName(c));
    if a == b {
      assert a[0] == b[0];
    }
  }

  /** Medium and large companies get the same schedule. */
  lemma MediumAndLargeShareSchedule(sum: int, n: int)
    requires n > 0
    ensures Schedule(sum, n, SizeName(Medium)) == Schedule(sum, n, SizeName(Large))
  {
  }

  /** Scores never decrease along `s`. */
  predicate SortedByScore(s: seq<EvalRow>) {
    forall i, j :: 0 <= i < j < |s| ==> s[i].score <= s[j].score
  }

  /** Inserts `x` before the first row whose score is not below it. */
  function InsertByScore(x: EvalRow, s: seq<EvalRow>): (r: seq<EvalRow>)
    requires SortedByScore(s)
    ensures SortedByScore(r)
    ensures multiset(r) == multiset(s) + multiset{x}
    ensures r[0] == x || (s != [] && r[0] == s[0])
  {
    if s == [] || x.score <= s[0].score then
      [x] + s
    else
      assert s == [s[0]] + s[1..];
      SortedTail(s);
      var rest := InsertByScore(x, s[1..]);
      SortedCons(s[0], rest);
      [s[0]] + rest
  }

  /** Dropping the head keeps a sequence sorted. */
  lemma SortedTail(s: seq<EvalRow>)
    requires SortedByScore(s) && s != []
    ensures SortedByScore(s[1..])
  {
    forall i, j | 0 <= i < j < |s| - 1
      ensures s[1..][i].score <= s[1..][j].score
    {
      assert s[1..][i] == s[i + 1] && s[1..][j] == s[j + 1];
    }
  }

  /** A row no higher than the head of a sorted sequence can go in front. */
  lemma SortedCons(h: EvalRow, t: seq<EvalRow>)
    requires SortedByScore(t) && (t == [] || h.score <= t[0].score)
    ensures SortedByScore([h] + t)
  {
    var r := [h] + t;
    forall i, j | 0 <= i < j < |r|
      ensures r[i].score <= r[j].score
    {
      if i > 0 {
        assert r[i] == t[i - 1] && r[j] == t[j - 1];
      } else {
        assert r[j] == t[j - 1] && h.score <= t[0].score;
      }
    }
  }

  /** The rows of `s` with score `v`, in their order in `s`. */
  function WithScore(s: seq<EvalRow>, v: int): seq<EvalRow> {
    if s == [] then []
    else (if s[0].score == v then [s[0]] else []) + WithScore(s[1..], v)
  }

  /** `a` is an initial part of `b`. */
  predicate IsPrefix(a: seq<EvalRow>, b: seq<EvalRow>) {
    |a| <= |b| && a == b[..|a|]
  }

  /** The rows of a given score in `[h] + t`: `h` if it has that score,
      then those of `t`. */
  lemma WithScoreCons(h: EvalRow, t: seq<EvalRow>, v: int)
    ensures WithScore([h] + t, v) == (if h.score == v then [h] else []) + WithScore(t, v)
  {
    var r := [h] + t;
    assert r[0] == h && r[1..] == t;
  }

  /** Inserting into a sorted sequence puts `x` before the rows of its own
      score and moves no other row past one of equal score. */
  lemma {:induction false} InsertStable(x: EvalRow, s: seq<EvalRow>, v: int)
    requires SortedByScore(s)
    ensures WithScore(InsertByScore(x, s), v) == (if x.score == v then [x] else []) + WithScore(s, v)
    decreases |s|
  {
    if s == [] || x.score <= s[0].score {
      assert InsertByScore(x, s) == [x] + s;
      WithScoreCons(x, s, v);
    } else {
      var rest := InsertByScore(x, s[1..]);
      assert InsertByScore(x, s) == [s[0]] + rest;
      WithScoreCons(s[0], rest, v);
      assert s == [s[0]] + s[1..];
      WithScoreCons(s[0], s[1..], v);
      InsertStable(x, s[1..], v);
      if x.score == v {
        assert s[0].score != v;
      }
    }
  }

  lemma InsertStableAll(x: EvalRow, s: seq<EvalRow>)
    requires SortedByScore(s)
    ensures forall v :: WithScore(InsertByScore(x, s), v) == (if x.score == v then [x] else []) + WithScore(s, v)
  {
    forall v
      ensures WithScore(InsertByScore(x, s), v) == (if x.score == v then [x] else []) + WithScore(s, v)
    {
      InsertStable(x, s, v);
    }
  }

  /** Python's `sorted(evaluaciones, key=lambda x: x[2])` as an insertion
      sort: the result is sorted, a permutation of `s`, and stable: the
      rows of each score keep their order in `s`. */
  function SortByScore(s: seq<EvalRow>): (r: seq<EvalRow>)
    ensures SortedByScore(r)
    ensures multiset(r) == multiset(s)
    ensures forall v :: WithScore(r, v) == WithScore(s, v)
  {
    if s == [] then []
    else
      assert s == [s[0]] + s[1..];
      InsertStableAll(s[0], SortByScore(s[1..]));
      InsertByScore(s[0], SortByScore(s[1..]))
  }

  function Min(a: int, b: int): int {
    if a <= b then a else b
  }

  /** Taking the first `m` rows leaves exactly the rest behind. */
  lemma PrefixLeavesSuffix(t: seq<EvalRow>, m: nat)
    requires m <= |t|
    ensures multiset(t[..m]) <= multiset(t)
    ensures multiset(t) - multiset(t[..m]) == multiset(t[m..])
  {
    assert t == t[..m] + t[m..];
    assert multiset(t) == multiset(t[..m]) + multiset(t[m..]);
  }

  /** In a sorted sequence every row of a prefix scores at most every row
      after it. */
  lemma PrefixBelowSuffix(t: seq<EvalRow>, m: nat)
    requires SortedByScore(t) && m <= |t|
    ensures forall y, z :: y in t[m..] && z in t[..m] ==> z.score <= y.score
  {
    forall y, z | y in t[m..] && z in t[..m]
      ensures z.score <= y.score
    {
      var j :| 0 <= j < |t[m..]| && t[m..][j] == y;
      var i :| 0 <= i < m && t[..m][i] == z;
      assert t[i] == z && t[m + j] == y;
    }
  }

  /** The first `m` rows of a sorted sequence are sorted, come from it,
      and no row after them scores below any of them. */
  lemma SortedPrefixIsLowest(t: seq<EvalRow>, m: nat)
    requires SortedByScore(t) && m <= |t|
    ensures SortedByScore(t[..m])
    ensures multiset(t[..m]) <= multiset(t)
    ensures forall y, z :: y in multiset(t) - multiset(t[..m]) && z in t[..m] ==> z.score <= y.score
  {
    PrefixLeavesSuffix(t, m);
    PrefixBelowSuffix(t, m);
    forall y, z | y in multiset(t) - multiset(t[..m]) && z in t[..m]
      ensures z.score <= y.score
    {
      assert y in multiset(t[m..]);
      assert y in t[m..];
    }
  }

  /** The rows of each score in a prefix of `t` are the first rows of
      that score in `t`. */
  lemma {:induction false} PrefixKeepsFirstOfScore(t: seq<EvalRow>, m: nat, v: int)
    requires m <= |t|
    ensures IsPrefix(WithScore(t[..m], v), WithScore(t, v))
    decreases m
  {
    if m > 0 {
      PrefixKeepsFirstOfScore(t[1..], m - 1, v);
      assert t[..m][0] == t[0] && t[..m][1..] == t[1..][..m - 1];
    }
  }

  /** The priority axes: the first three rows of the rows sorted by score.
      They are rows of the input, in increasing score, and no row left out
      scores below any row chosen; of rows with equal score, the earliest
      in the input are chosen. */
  function CriticalAxes(evals: seq<EvalRow>): (r: seq<EvalRow>)
    ensures |r| == Min(3, |evals|)
    ensures SortedByScore(r)
    ensures multiset(r) <= multiset(evals)
    ensures forall y, z :: y in multiset(evals) - multiset(r) && z in r ==> z.score <= y.score
    ensures forall v :: IsPrefix(WithScore(r, v), WithScore(evals, v))
  {
    var sorted := SortByScore(evals);
    var m := Min(3, |evals|);
    SortedPrefixIsLowest(sorted, m);
    PrefixKeepsFirstOfScoreAll(sorted, m);
    sorted[..m]
  }

  lemma PrefixKeepsFirstOfScoreAll(t: seq<EvalRow>, m: nat)
    requires m <= |t|
    ensures forall v :: IsPrefix(WithScore(t[..m], v), WithScore(t, v))
  {
    forall v ensures IsPrefix(WithScore(t[..m], v), WithScore(t, v)) {
      PrefixKeepsFirstOfScore(t, m, v);
    }
  }

  /** The consulting plan for a company size and its evaluations. */
  datatype Plan = Plan(
    size: SizeClass,
    stage: Stage,
    engagement: Engagement,
    critical: seq<EvalRow>,
    schedule: seq<ScheduleRow>)

  /** The sum of the scores of `evals`. */
  function SumScores(evals: seq<EvalRow>): int {
    if evals == [] then 0 else SumScores(evals[..|evals| - 1]) + evals[|evals| - 1].score
  }

  /** The decisions of `generar_pdf_consultoria`; the caller guarantees at
      least one evaluation, as the average divides by their number. The
      size class comes from the free text, the stage from the average
      score, the table entries from both, and the priorities are the three
      lowest-scoring evaluations, earliest first among equal scores. */
  function PlanFor(companySize: string, evals: seq<EvalRow>): (p: Plan)
    requires |evals| > 0
    ensures p.size == NormalizeSize(companySize)
    ensures p.stage == Initial <==> 2 * SumScores(evals) <= 3 * |evals|
    ensures p.stage == Development <==> 3 * |evals| < 2 * SumScores(evals) && SumScores(evals) <= 3 * |evals|
    ensures p.stage == Optimisation <==> 3 * |evals| < SumScores(evals)
    ensures p.engagement == EngagementFor(p.size, p.stage)
    ensures p.schedule == ScheduleFor(p.size, p.stage)
    ensures |p.critical| == Min(3, |evals|) && SortedByScore(p.critical)
    ensures multiset(p.critical) <= multiset(evals)
    ensures forall y, z :: y in multiset(evals) - multiset(p.critical) && z in p.critical ==> z.score <= y.score
    ensures forall v :: IsPrefix(WithScore(p.critical, v), WithScore(evals, v))
  {
    var c := NormalizeSize(companySize);
    var sum := SumScores(evals);
    var n := |evals|;
    var st := StageOf(sum, n);
    Plan(c, st, EngagementFor(c, st), CriticalAxes(evals), Schedule(sum, n, SizeName(c)))
  }
}

=== FILE: login.dfy ===
/** The client-side checks of the login form (`static/js/main.js`):
    `Utils.validateEmail` and `FormHandler.validateLoginForm`. */
module LoginForm {
  import opened Wrappers
  import opened Text

  /** A character of the class `[^\s@]`. */
  predicate IsAddressChar(c: char) {
    !IsJsSpace(c) && c != '@'
  }

  predicate AllAddressChars(s: string) {
    forall k :: 0 <= k < |s| ==> IsAddressChar(s[k])
  }

  /** `s` reads as local part, '@' at `at`, host, '.' at `dot`, suffix,
      each of the three parts a non-empty run of `[^\s@]`. */
  predicate SplitsAt(s: string, at: int, dot: int) {
    && 0 < at && at + 1 < dot && dot + 1 < |s|
    && s[at] == '@' && s[dot] == '.'
    && AllAddressChars(s[..at]) && AllAddressChars(s[at + 1..dot]) && AllAddressChars(s[dot + 1..])
  }

  /** The language of `/^[^\s@]+@[^\s@]+\.[^\s@]+$/`. */
  ghost predicate MatchesEmailPattern(s: string) {
    exists at, dot :: SplitsAt(s, at, dot)
  }

  /** Some '.' of `d` has at least one character on each side. */
  predicate HasInnerDot(d: string) {
    exists k :: 1 <= k < |d| - 1 && d[k] == '.'
  }

  predicate NoJsSpace(s: string) {
    forall k :: 0 <= k < |s| ==> !IsJsSpace(s[k])
  }

  /** The checks `ValidateEmail` performs, one after the other. */
  predicate EmailChecks(s: string) {
    var at := IndexOf(s, '@');
    NoJsSpace(s) && CountChar(s, '@') == 1 && 0 < at && HasInnerDot(s[at + 1..])
  }

  /** `Utils.validateEmail`: no whitespace, exactly one '@', something
      before it, and after it a '.' with a character on each side. This
      is exactly the language of the regular expression. */
  function ValidateEmail(s: string): (ok: bool)
    ensures ok <==> MatchesEmailPattern(s)
  {
    ChecksIffPattern(s);
    EmailChecks(s)
  }

  lemma ChecksIffPattern(s: string)
    ensures EmailChecks(s) <==> MatchesEmailPattern(s)
  {
    var at := IndexOf(s, '@');
    if EmailChecks(s) {
      var k :| 1 <= k < |s[at + 1..]| - 1 && s[at + 1..][k] == '.';
      OnlyOneAt(s, at);
      assert SplitsAt(s, at, at + 1 + k);
    }
    if MatchesEmailPattern(s) {
      var a, d :| SplitsAt(s, a, d);
      SplitImpliesValid(s, a, d);
    }
  }

  /** With a single '@' at `at`, no other position holds one. */
  lemma OnlyOneAt(s: string, at: int)
    requires 0 <= at < |s| && s[at] == '@' && CountChar(s, '@') == 1
    ensures forall k :: 0 <= k < |s| && k != at ==> s[k] != '@'
  {
    assert s == s[..at] + [s[at]] + s[at + 1..];
    CountCharAppend(s[..at] + [s[at]], s[at + 1..], '@');
    CountCharAppend(s[..at], [s[at]], '@');
    assert [s[at]][..0] == [];
    forall k | 0 <= k < |s| && k != at ensures s[k] != '@' {
      if k < at {
        assert s[k] == s[..at][k];
      } else {
        assert s[k] == s[at + 1..][k - at - 1];
      }
    }
  }

  /** A split in the sense of the pattern passes each of the checks. */
  lemma SplitImpliesValid(s: string, at: int, dot: int)
    requires SplitsAt(s, at, dot)
    ensures NoJsSpace(s) && CountChar(s, '@') == 1 && IndexOf(s, '@') == at
    ensures HasInnerDot(s[at + 1..])
  {
    var pre, host, suf := s[..at], s[at + 1..dot], s[dot + 1..];
    assert s == pre + ['@'] + host + ['.'] + suf;
    forall k | 0 <= k < |s| ensures !IsJsSpace(s[k]) && (k != at ==> s[k] != '@') {
      if k < at {
        assert s[k] == pre[k];
      } else if at < k < dot {
        assert s[k] == host[k - at - 1];
      } else if dot < k {
        assert s[k] == suf[k - dot - 1];
      }
    }
    CountCharAppend(pre + ['@'] + host + ['.'], suf, '@');
    CountCharAppend(pre + ['@'] + host, ['.'], '@');
    CountCharAppend(pre + ['@'], host, '@');
    CountCharAppend(pre, ['@'], '@');
    assert ['@'][..0] == [] && ['.'][..0] == [];
    var d := s[at + 1..];
    assert d[dot - at - 1] == '.';
  }

  /** A string with whitespace, with no '@' or with two or more '@'
      never matches. */
  lemma EmailRejections(s: string)
    requires !NoJsSpace(s) || CountChar(s, '@') != 1
    ensures !ValidateEmail(s)
  {
    if MatchesEmailPattern(s) {
      var a, d :| SplitsAt(s, a, d);
      SplitImpliesValid(s, a, d);
    }
  }

  lemma EmailExamples()
    ensures ValidateEmail("ana@empresa.co")
  {
    var s := "ana@empresa.co";
    assert s[..3] == "ana" && s[4..11] == "empresa" && s[12..] == "co";
    assert SplitsAt(s, 3, 11);
  }

  /** The fields of the form; `None` is a field that is not there. */
  datatype LoginData = LoginData(email: Option<string>, companyName: Option<string>, companyType: Option<string>)

  /** The three messages, in the order the checks run. */
  datatype LoginError = InvalidEmail | ShortCompanyName | VagueCompanyType

  function Message(e: LoginError): string {
    match e
    case InvalidEmail => "Por favor ingrese un correo electr\U{F3}nico v\U{E1}lido"
    case ShortCompanyName => "El nombre de la empresa debe tener al menos 2 caracteres"
    case VagueCompanyType => "Por favor describa el tipo de empresa con m\U{E1}s detalle"
  }

  /** Position of a message in the result. */
  function Rank(e: LoginError): nat {
    match e
    case InvalidEmail => 0
    case ShortCompanyName => 1
    case VagueCompanyType => 2
  }

  /** A JavaScript-truthy string field: present and not empty. */
  predicate Filled(f: Option<string>) {
    f.Some? && f.value != ""
  }

  predicate EmailAccepted(f: LoginData) {
    Filled(f.email) && ValidateEmail(f.email.value)
  }

  /** A field whose trimmed length, in UTF-16 code units, reaches `min`. */
  predicate LongEnough(f: Option<string>, min: nat) {
    Filled(f) && Utf16Length(JsTrim(f.value)) >= min
  }

  /** `FormHandler.validateLoginForm`: one message per failing check, in
      the order email, company name, company type. */
  function ValidateLoginForm(f: LoginData): (errors: seq<LoginError>)
    ensures |errors| <= 3
    ensures forall i, j :: 0 <= i < j < |errors| ==> Rank(errors[i]) < Rank(errors[j])
    ensures InvalidEmail in errors <==> !EmailAccepted(f)
    ensures ShortCompanyName in errors <==> !LongEnough(f.companyName, 2)
    ensures VagueCompanyType in errors <==> !LongEnough(f.companyType, 5)
    ensures errors == [] <==> EmailAccepted(f) && LongEnough(f.companyName, 2) && LongEnough(f.companyType, 5)
  {
    var e := if EmailAccepted(f) then [] else [InvalidEmail];
    var n := if LongEnough(f.companyName, 2) then [] else [ShortCompanyName];
    var t := if LongEnough(f.companyType, 5) then [] else [VagueCompanyType];
    RanksIncrease(e, n, t);
    OneMessagePerCheck(e, n, t);
    e + n + t
  }

  /** The texts `validateLoginForm` pushes, in its order: each text is
      present exactly when its check fails. */
  function ErrorMessages(f: LoginData): (msgs: seq<string>)
    ensures |msgs| == |ValidateLoginForm(f)| <= 3
    ensures forall i :: 0 <= i < |msgs| ==> msgs[i] == Message(ValidateLoginForm(f)[i])
    ensures Message(InvalidEmail) in msgs <==> !EmailAccepted(f)
    ensures Message(ShortCompanyName) in msgs <==> !LongEnough(f.companyName, 2)
    ensures Message(VagueCompanyType) in msgs <==> !LongEnough(f.companyType, 5)
  {
    Messages(ValidateLoginForm(f))
  }

  /** The texts of a list of failed checks, in the same order. */
  function Messages(errors: seq<LoginError>): (msgs: seq<string>)
    ensures |msgs| == |errors|
    ensures forall i :: 0 <= i < |errors| ==> msgs[i] == Message(errors[i])
    ensures forall e :: Message(e) in msgs <==> e in errors
  {
    if errors == [] then []
    else
      MessagesDistinct();
      [Message(errors[0])] + Messages(errors[1..])
  }

  /** Different checks push different texts (they differ in length), so
      the text names its check. */
  lemma MessagesDistinct()
    ensures forall a, b :: Message(a) == Message(b) ==> a == b
  {
    assert |Message(InvalidEmail)| == 46;
    assert |Message(ShortCompanyName)| == 56;
    assert |Message(VagueCompanyType)| == 53;
  }

  /** Each message is in the concatenation exactly when its own part
      holds it. */
  lemma OneMessagePerCheck(e: seq<LoginError>, n: seq<LoginError>, t: seq<LoginError>)
    requires e == [] || e == [InvalidEmail]
    requires n == [] || n == [ShortCompanyName]
    requires t == [] || t == [VagueCompanyType]
    ensures |e + n + t| <= 3
    ensures InvalidEmail in e + n + t <==> e != []
    ensures ShortCompanyName in e + n + t <==> n != []
    ensures VagueCompanyType in e + n + t <==> t != []
    ensures e + n + t == [] <==> e == [] && n == [] && t == []
  {
  }

  /** At most one message per check, concatenated in check order, gives
      strictly increasing ranks. */
  lemma RanksIncrease(e: seq<LoginError>, n: seq<LoginError>, t: seq<LoginError>)
    requires e == [] || e == [InvalidEmail]
    requires n == [] || n == [ShortCompanyName]
    requires t == [] || t == [VagueCompanyType]
    ensures forall i, j :: 0 <= i < j < |e + n + t| ==> Rank((e + n + t)[i]) < Rank((e + n + t)[j])
  {
    var r := e + n + t;
    forall i, j | 0 <= i < j < |r| ensures Rank(r[i]) < Rank(r[j]) {
      assert Rank(r[i]) == if i < |e| then 0 else if i < |e| + |n| then 1 else 2;
      assert Rank(r[j]) == if j < |e| then 0 else if j < |e| + |n| then 1 else 2;
    }
  }

  /** Each message depends on its own field only. */
  lemma FieldsIndependent(f: LoginData, g: LoginData)
    ensures f.email == g.email ==> (InvalidEmail in ValidateLoginForm(f) <==> InvalidEmail in ValidateLoginForm(g))
    ensures f.companyName == g.companyName ==>
      (ShortCompanyName in ValidateLoginForm(f) <==> ShortCompanyName in ValidateLoginForm(g))
    ensures f.companyType == g.companyType ==>
      (VagueCompanyType in ValidateLoginForm(f) <==> VagueCompanyType in ValidateLoginForm(g))
  {
  }

  /** Whitespace around the company name does not count towards its length,
      and a name of blanks is rejected however long it is. */
  lemma BlankNameRejected(f: LoginData)
    requires f.companyName.Some? && forall k :: 0 <= k < |f.companyName.value| ==> IsJsSpace(f.companyName.value[k])
    ensures ShortCompanyName in ValidateLoginForm(f)
  {
  }
}

=== FILE: recommendation.dfy ===
/** Recommendation selection (`generar_recomendaciones`): a score picks one
    of three levels, and the text is either the generator's reply (marked
    `*G`) or the catalogue entry for the axis and level (marked `*P`). The
    generator is outside the model: its reply is an input, `None` standing
    for "no client configured", "the call raised" or "no text". */
module Recommendation {
  import opened Wrappers
  import opened Text
  import opened Scoring

  /** The identifiers of `EJES_EVALUACION`. */
  predicate IsAxis(id: int) {
    1 <= id <= 10
  }

  datatype Level = Initial | Consolidation | Advanced

  /** The level's name as the prompt states it. */
  function Focus(l: Level): string {
    match l
    case Initial => "ESTABLECIMIENTO INICIAL"
    case Consolidation => "CONSOLIDACI\U{D3}N"
    case Advanced => "AVANZADO"
  }

  /** The level's key in the catalogue. */
  function Key(l: Level): string {
    match l
    case Initial => "bajo"
    case Consolidation => "medio"
    case Advanced => "alto"
  }

  /** The first if-chain of the selection: the focus written into the prompt. */
  function FocusOf(score: int): string {
    if score <= 2 then "ESTABLECIMIENTO INICIAL"
    else if score == 3 then "CONSOLIDACI\U{D3}N"
    else "AVANZADO"
  }

  /** The second if-chain of the selection: the catalogue key. */
  function KeyOf(score: int): string {
    if score <= 2 then "bajo"
    else if score == 3 then "medio"
    else "alto"
  }

  /** The level a score falls in: up to 2, exactly 3, or anything else. */
  function LevelOf(score: int): (l: Level)
    ensures l == Initial <==> score <= 2
    ensures l == Consolidation <==> score == 3
    ensures l == Advanced <==> score >= 4
  {
    if score <= 2 then Initial else if score == 3 then Consolidation else Advanced
  }

  /** The two if-chains agree: for every level, the focus names it exactly
      when the catalogue key names it, and that level is `LevelOf(score)`. */
  lemma ChainsAgree(score: int, l: Level)
    ensures FocusOf(score) == Focus(l) <==> KeyOf(score) == Key(l)
    ensures KeyOf(score) == Key(l) <==> l == LevelOf(score)
  {
  }

  /** Higher scores never select a lower level. */
  lemma LevelMonotone(s: int, t: int)
    requires s <= t
    ensures LevelOf(s) == Advanced ==> LevelOf(t) == Advanced
    ensures LevelOf(t) == Initial ==> LevelOf(s) == Initial
  {
  }

  /** The catalogue keys. */
  const Keys: set<string> := {"bajo", "medio", "alto"}

  /** Stand-in for the prose of the catalogue entry of an axis and key:
      a different string for every pair. */
  function EntryText(axis: int, key: string): string
    requires IsAxis(axis)
  {
    [axis as char] + key
  }

  /** `recomendaciones_por_eje`: every axis 1..10 with its three entries. */
  const Catalog: map<int, map<string, string>> :=
    map a | 1 <= a <= 10 :: map k | k in Keys :: EntryText(a, k)

  /** The catalogue holds an entry for every axis and every level. */
  lemma CatalogComplete(axis: int, l: Level)
    requires IsAxis(axis)
    ensures axis in Catalog && Key(l) in Catalog[axis]
    ensures Catalog[axis][Key(l)] == EntryText(axis, Key(l))
  {
  }

  /** Different (axis, level) pairs have different entries. */
  lemma EntriesDistinct(a: int, l: Level, b: int, m: Level)
    requires IsAxis(a) && IsAxis(b)
    requires EntryText(a, Key(l)) == EntryText(b, Key(m))
    ensures a == b && l == m
  {
    assert EntryText(a, Key(l))[0] == EntryText(b, Key(m))[0];
    assert Key(l) == EntryText(a, Key(l))[1..];
    assert Key(m) == EntryText(b, Key(m))[1..];
  }

  const GeneratedTag := "*G\n\n"
  const PredefinedTag := "*P\n\n"

  /** A reply is used when it exists and is longer than 200 characters
      once surrounding whitespace is stripped. */
  predicate UsableReply(reply: Option<string>)
    ensures UsableReply(reply) ==> reply.Some? && |reply.value| > 200
    ensures (reply.Some? && |reply.value| > 200
             && !IsPySpace(reply.value[0]) && !IsPySpace(reply.value[|reply.value| - 1])) ==> UsableReply(reply)
  {
    reply.Some? && (UnpaddedStripsToItself(reply.value, Python); |PyStrip(reply.value)| > 200)
  }

  datatype RecommendError =
    | UnknownAxis(axis: int)             // `EJES_EVALUACION[eje_id]` raises
    | NoGenericRecommendation(axis: int) // the branch naming an undefined table

  /** The score the selection uses: the one supplied, else the computed one. */
  function EffectiveScore(responses: seq<Response>, score: Option<int>): int {
    if score.Some? then score.value else Score(responses)
  }

  /** `generar_recomendaciones`. The company type and size only shape the
      prompt, so they do not appear here. */
  function Recommend(axis: int, responses: seq<Response>, score: Option<int>, reply: Option<string>)
    : (r: Result<string, RecommendError>)
    ensures !IsAxis(axis) <==> r == Failure(UnknownAxis(axis))
    ensures IsAxis(axis) ==> r.Success?
    ensures IsAxis(axis) && UsableReply(reply) ==> r.value == GeneratedTag + reply.value
    ensures IsAxis(axis) && !UsableReply(reply) ==>
      r.value == PredefinedTag + EntryText(axis, Key(LevelOf(EffectiveScore(responses, score))))
  {
    if !IsAxis(axis) then Failure(UnknownAxis(axis))
    else
      var key := KeyOf(EffectiveScore(responses, score));
      if UsableReply(reply) then Success(GeneratedTag + reply.value)
      else if axis in Catalog then Success(PredefinedTag + Catalog[axis][key])
      else Failure(NoGenericRecommendation(axis))
  }

  datatype Provenance = Generated | Predefined

  /** Reads the provenance mark at the head of a recommendation. */
  function ProvenanceOf(text: string): Option<Provenance> {
    if StartsWith(text, GeneratedTag) then Some(Generated)
    else if StartsWith(text, PredefinedTag) then Some(Predefined)
    else None
  }

  /** Either mark is read back from a marked text, and what follows the
      mark is the text itself. */
  lemma MarksReadBack(body: string)
    ensures ProvenanceOf(GeneratedTag + body) == Some(Generated)
    ensures ProvenanceOf(PredefinedTag + body) == Some(Predefined)
    ensures (GeneratedTag + body)[|GeneratedTag|..] == body
    ensures (PredefinedTag + body)[|PredefinedTag|..] == body
  {
    assert (GeneratedTag + body)[..|GeneratedTag|] == GeneratedTag;
    assert (PredefinedTag + body)[..|PredefinedTag|] == PredefinedTag;
    assert (PredefinedTag + body)[1] != GeneratedTag[1];
  }

  /** The mark tells the two sources apart: a recommendation reads as
      generated exactly when the reply was used, and as predefined
      exactly when it was not; the text after the mark is the reply or
      the catalogue entry. */
  lemma ProvenanceMarksSource(axis: int, responses: seq<Response>, score: Option<int>, reply: Option<string>)
    requires IsAxis(axis)
    ensures var text := Recommend(axis, responses, score, reply).value;
      && (ProvenanceOf(text) == Some(Generated) <==> UsableReply(reply))
      && (ProvenanceOf(text) == Some(Predefined) <==> !UsableReply(reply))
      && text[|GeneratedTag|..] ==
           if UsableReply(reply) then reply.value
           else EntryText(axis, Key(LevelOf(EffectiveScore(responses, score))))
  {
    var body := if UsableReply(reply) then reply.value
      else EntryText(axis, Key(LevelOf(EffectiveScore(responses, score))));
    MarksReadBack(body);
  }

  /** Without a usable reply the result depends only on the axis and the
      level, so equal inputs give identical text. */
  lemma FallbackDependsOnLevel(axis: int, rs1: seq<Response>, s1: Option<int>, rs2: seq<Response>, s2: Option<int>, reply1: Option<string>, reply2: Option<string>)
    requires IsAxis(axis) && !UsableReply(reply1) && !UsableReply(reply2)
    ensures Recommend(axis, rs1, s1, reply1) == Recommend(axis, rs2, s2, reply2)
        <==> LevelOf(EffectiveScore(rs1, s1)) == LevelOf(EffectiveScore(rs2, s2))
  {
    var l1 := LevelOf(EffectiveScore(rs1, s1));
    var l2 := LevelOf(EffectiveScore(rs2, s2));
    if Recommend(axis, rs1, s1, reply1) == Recommend(axis, rs2, s2, reply2) {
      assert EntryText(axis, Key(l1)) == (PredefinedTag + EntryText(axis, Key(l1)))[|PredefinedTag|..];
      assert EntryText(axis, Key(l2)) == (PredefinedTag + EntryText(axis, Key(l2)))[|PredefinedTag|..];
      EntriesDistinct(axis, l1, axis, l2);
    }
  }

  /** Cybersecurity (axis 9) answered with two Likert 1s and two "no"s and
      no generator: score 1, the low-level catalogue entry, marked `*P`. */
  lemma CybersecurityAllLowScenario()
    ensures var rs := [Likert(1), Likert(1), YesNo("no"), YesNo("no")];
      Score(rs) == 1 && Recommend(9, rs, None, None) == Success(PredefinedTag + EntryText(9, "bajo"))
  {
    var rs := [Likert(1), Likert(1), YesNo("no"), YesNo("no")];
    assert Counted(rs) > 0;
    UniformScore(rs, 1);
  }

  /** Digital strategy (axis 1) answered with four Likert 5s: score 5, the
      high-level entry. */
  lemma StrategyAllHighScenario()
    ensures var rs := [Likert(5), Likert(5), Likert(5), Likert(5)];
      Score(rs) == 5 && Recommend(1, rs, None, None) == Success(PredefinedTag + EntryText(1, "alto"))
  {
    var rs := [Likert(5), Likert(5), Likert(5), Likert(5)];
    assert Counted(rs) > 0;
    UniformScore(rs, 5);
  }

  /** A reply without surrounding whitespace and longer than 200
      characters is returned as it is, marked `*G`. */
  lemma LongReplyScenario(axis: int, responses: seq<Response>, score: Option<int>, text: string)
    requires IsAxis(axis) && |text| > 200
    requires !IsPySpace(text[0]) && !IsPySpace(text[|text| - 1])
    ensures Recommend(axis, responses, score, Some(text)) == Success(GeneratedTag + text)
  {
  }
}

=== FILE: scoring.dfy ===
/** The score of one axis (`calcular_puntaje`): every response contributes
    an integer, the contributions are averaged and the average is rounded
    half to even, as Python's `round` does. */
module Scoring {
  import opened Wrappers

  /** One submitted answer. `Likert` carries `int(valor)`; `YesNo` carries
      the raw `valor` of a yes/no question; any other `tipo` is `OtherKind`. */
  datatype Response =
    | Likert(value: int)
    | YesNo(answer: string)
    | OtherKind(kind: string)

  /** The yes/no answer that counts as affirmative. */
  const Affirmative := "si"

  /** What one response adds to the total, or `None` when it is skipped. */
  function Contribution(r: Response): Option<int> {
    match r
    case Likert(v) => Some(v)
    case YesNo(a) => Some(if a == Affirmative then 5 else 1)
    case OtherKind(_) => None
  }

  /** Sum of the contributions of the counted responses. */
  function Total(rs: seq<Response>): int {
    if rs == [] then 0
    else Total(rs[..|rs| - 1]) + Contribution(rs[|rs| - 1]).GetOr(0)
  }

  /** Number of counted responses. */
  function Counted(rs: seq<Response>): nat {
    if rs == [] then 0
    else Counted(rs[..|rs| - 1]) + (if Contribution(rs[|rs| - 1]).Some? then 1 else 0)
  }

  function Abs(x: int): nat {
    if x < 0 then -x else x
  }

  /** `r` is `num/den` rounded half to even, stated without division: `r`
      lies within half a unit of `num/den`, and on an exact tie `r` is even. */
  predicate IsRoundHalfEven(num: int, den: int, r: int)
    requires den > 0
  {
    var dist := Abs(num - r * den);
    2 * dist < den || (2 * dist == den && r % 2 == 0)
  }

  /** Python's `round(num / den)` for integers, with floor division and a
      non-negative remainder as the starting point. */
  function RoundHalfEven(num: int, den: int): (r: int)
    requires den > 0
    ensures IsRoundHalfEven(num, den, r)
  {
    var q := num / den;
    var rem := num % den;
    assert num - q * den == rem;
    assert num - (q + 1) * den == rem - den;
    if 2 * rem < den then q
    else if 2 * rem > den then q + 1
    else if q % 2 == 0 then q
    else q + 1
  }

  /** How a whole number of `den`-sized steps compares with `den`. */
  lemma StepFacts(k: int, den: int)
    requires den > 0
    ensures k >= 1 ==> k * den >= den
    ensures k >= 2 ==> k * den >= 2 * den
    ensures k <= -1 ==> k * den <= -den
    ensures k <= -2 ==> k * den <= -2 * den
  {
    if k >= 2 {
      assert k * den == (k - 2) * den + 2 * den;
    } else if k <= -2 {
      assert k * den == (k + 2) * den - 2 * den;
    }
  }

  lemma Distribute(a: int, b: int, den: int)
    ensures a * den - b * den == (a - b) * den
  {
  }

  /** At most one integer is the half-to-even rounding of a fraction. */
  lemma RoundHalfEvenUnique(num: int, den: int, r: int, r': int)
    requires den > 0
    requires IsRoundHalfEven(num, den, r) && IsRoundHalfEven(num, den, r')
    ensures r == r'
  {
    StepFacts(r' - r, den);
    Distribute(r', r, den);
  }

  /** The reference characterisation: `RoundHalfEven` returns exactly the
      integers that satisfy `IsRoundHalfEven`. */
  lemma RoundHalfEvenIff(num: int, den: int, r: int)
    requires den > 0
    ensures RoundHalfEven(num, den) == r <==> IsRoundHalfEven(num, den, r)
  {
    if IsRoundHalfEven(num, den, r) {
      RoundHalfEvenUnique(num, den, RoundHalfEven(num, den), r);
    }
  }

  /** A rounded fraction stays between integer bounds of the fraction. */
  lemma RoundWithinBounds(num: int, den: int, r: int, lo: int, hi: int)
    requires den > 0 && lo * den <= num <= hi * den
    requires IsRoundHalfEven(num, den, r)
    ensures lo <= r <= hi
  {
    StepFacts(lo - r, den);
    Distribute(lo, r, den);
    StepFacts(r - hi, den);
    Distribute(r, hi, den);
  }

  /** `calcular_puntaje`: the rounded average of the contributions, or 1
      when no response was counted. */
  function Score(rs: seq<Response>): (s: int)
    ensures Counted(rs) == 0 ==> s == 1
    ensures Counted(rs) > 0 ==> IsRoundHalfEven(Total(rs), Counted(rs), s)
  {
    if Counted(rs) > 0 then RoundHalfEven(Total(rs), Counted(rs)) else 1
  }

  /** Ties go to the even neighbour: [3, 2] averages 2.5 and scores 2,
      [3, 4] averages 3.5 and scores 4. */
  lemma TiesRoundToEven()
    ensures Score([Likert(3), Likert(2)]) == 2
    ensures Score([Likert(3), Likert(4)]) == 4
  {
    var a := [Likert(3), Likert(2)];
    assert a[..1] == [Likert(3)] && a[..1][..0] == [];
    assert Total(a) == 5 && Counted(a) == 2;
    var b := [Likert(3), Likert(4)];
    assert b[..1] == [Likert(3)] && b[..1][..0] == [];
    assert Total(b) == 7 && Counted(b) == 2;
  }

  /** Every Likert value lies on the 1..5 scale. */
  predicate LikertInRange(rs: seq<Response>) {
    forall i :: 0 <= i < |rs| && rs[i].Likert? ==> 1 <= rs[i].value <= 5
  }

  lemma {:induction false} TotalBetween(rs: seq<Response>)
    requires LikertInRange(rs)
    ensures Counted(rs) <= Total(rs) <= 5 * Counted(rs)
  {
    if rs != [] {
      var init := rs[..|rs| - 1];
      assert LikertInRange(init) by {
        forall i | 0 <= i < |init| && init[i].Likert? ensures 1 <= init[i].value <= 5 {
          assert init[i] == rs[i];
        }
      }
      TotalBetween(init);
    }
  }

  /** With every Likert value on the 1..5 scale the score is on it too. */
  lemma ScoreInRange(rs: seq<Response>)
    requires LikertInRange(rs)
    ensures 1 <= Score(rs) <= 5
  {
    if Counted(rs) > 0 {
      TotalBetween(rs);
      RoundWithinBounds(Total(rs), Counted(rs), Score(rs), 1, 5);
    }
  }

  /** Every counted response contributes `v`. */
  predicate AllContribute(rs: seq<Response>, v: int) {
    forall i :: 0 <= i < |rs| && Contribution(rs[i]).Some? ==> Contribution(rs[i]).value == v
  }

  lemma {:induction false} TotalUniform(rs: seq<Response>, v: int)
    requires AllContribute(rs, v)
    ensures Total(rs) == v * Counted(rs)
  {
    if rs != [] {
      var init := rs[..|rs| - 1];
      assert AllContribute(init, v) by {
        forall i | 0 <= i < |init| && Contribution(init[i]).Some?
          ensures Contribution(init[i]).value == v
        {
          assert init[i] == rs[i];
        }
      }
      TotalUniform(init, v);
      if Contribution(rs[|rs| - 1]).Some? {
        assert v * (Counted(init) + 1) == v * Counted(init) + v;
      }
    }
  }

  /** Answers that agree give their common contribution as the score: all
      "si" scores 5, all other yes/no answers score 1. */
  lemma UniformScore(rs: seq<Response>, v: int)
    requires Counted(rs) > 0 && AllContribute(rs, v)
    ensures Score(rs) == v
  {
    TotalUniform(rs, v);
    assert Total(rs) - v * Counted(rs) == 0;
    assert IsRoundHalfEven(Total(rs), Counted(rs), v) by {
      if v % 2 != 0 {
        assert Abs(Total(rs) - v * Counted(rs)) == 0;
      }
    }
    RoundHalfEvenUnique(Total(rs), Counted(rs), Score(rs), v);
  }

  lemma {:induction false} TotalCountedAppend(a: seq<Response>, b: seq<Response>)
    ensures Total(a + b) == Total(a) + Total(b)
    ensures Counted(a + b) == Counted(a) + Counted(b)
    decreases |b|
  {
    if b == [] {
      assert a + b == a;
    } else {
      var b' := b[..|b| - 1];
      assert (a + b)[..|a + b| - 1] == a + b';
      TotalCountedAppend(a, b');
    }
  }

  /** A response of an unrecognised kind changes nothing, wherever it is. */
  lemma OtherKindIgnored(a: seq<Response>, kind: string, b: seq<Response>)
    ensures Score(a + [OtherKind(kind)] + b) == Score(a + b)
  {
    TotalCountedAppend(a + [OtherKind(kind)], b);
    TotalCountedAppend(a, [OtherKind(kind)]);
    TotalCountedAppend(a, b);
  }

  /** Any yes/no answer other than "si" (not only "no") counts as a "no". */
  lemma NonAffirmativeIsNo(a: seq<Response>, answer: string, b: seq<Response>)
    requires answer != Affirmative
    ensures Score(a + [YesNo(answer)] + b) == Score(a + [YesNo("no")] + b)
  {
    TotalCountedAppend(a + [YesNo(answer)], b);
    TotalCountedAppend(a, [YesNo(answer)]);
    TotalCountedAppend(a + [YesNo("no")], b);
    TotalCountedAppend(a, [YesNo("no")]);
  }
}

=== FILE: store.dfy ===
/** The database operations behind the routes: submitting an axis
    (`evaluar_eje`), deleting a user (`eliminar_usuario`), saving the
    business goals (`guardar_objetivos`) and the gate in front of the
    client report and the consulting plan. Users are keyed by id; the
    evaluation and goal tables are sequences of rows, because the schema
    itself does not forbid two rows for one key. */
module Store {
  import opened Wrappers
  import opened Text
  import opened Scoring
  import opened Recommendation
  import opened Tables
  import opened Consulting

  datatype Db = Db(users: map<UserId, UserRow>, evaluations: seq<EvalRow>, goals: seq<GoalsRow>)

  /** `SELECT ... FROM evaluaciones WHERE usuario_id = u`, in table order. */
  function EvalsOf(rows: seq<EvalRow>, u: UserId): (r: seq<EvalRow>)
    ensures |r| <= |rows|
    ensures forall k :: 0 <= k < |r| ==> r[k].user == u
  {
    if rows == [] then []
    else EvalsOf(rows[..|rows| - 1], u) + (if rows[|rows| - 1].user == u then [rows[|rows| - 1]] else [])
  }

  /** The rows stored for one user and one axis. */
  function EvalsAt(rows: seq<EvalRow>, u: UserId, a: int): (r: seq<EvalRow>)
    ensures |r| <= |rows|
  {
    if rows == [] then []
    else
      var last := rows[|rows| - 1];
      EvalsAt(rows[..|rows| - 1], u, a) + (if last.user == u && last.axis == a then [last] else [])
  }

  /** `DELETE FROM evaluaciones WHERE usuario_id = u AND eje_id = a`. */
  function DeleteEvalsAt(rows: seq<EvalRow>, u: UserId, a: int): (r: seq<EvalRow>)
    ensures |r| <= |rows|
  {
    if rows == [] then []
    else
      var last := rows[|rows| - 1];
      DeleteEvalsAt(rows[..|rows| - 1], u, a) + (if last.user == u && last.axis == a then [] else [last])
  }

  /** `DELETE FROM evaluaciones WHERE usuario_id = u`. */
  function DeleteEvalsOf(rows: seq<EvalRow>, u: UserId): (r: seq<EvalRow>)
    ensures |r| <= |rows|
  {
    if rows == [] then []
    else
      var last := rows[|rows| - 1];
      DeleteEvalsOf(rows[..|rows| - 1], u) + (if last.user == u then [] else [last])
  }

  /** Selecting by key or by user distributes over concatenation. */
  lemma EvalsAppend(x: seq<EvalRow>, y: seq<EvalRow>, u: UserId, a: int)
    ensures EvalsAt(x + y, u, a) == EvalsAt(x, u, a) + EvalsAt(y, u, a)
    ensures EvalsOf(x + y, u) == EvalsOf(x, u) + EvalsOf(y, u)
  {
    EvalsAtAppend(x, y, u, a);
    EvalsOfAppend(x, y, u);
  }

  lemma {:induction false} EvalsAtAppend(x: seq<EvalRow>, y: seq<EvalRow>, u: UserId, a: int)
    ensures EvalsAt(x + y, u, a) == EvalsAt(x, u, a) + EvalsAt(y, u, a)
    decreases |y|
  {
    if y == [] {
      assert x + y == x;
    } else {
      var y' := y[..|y| - 1];
      var last := y[|y| - 1];
      assert (x + y)[..|x + y| - 1] == x + y' && (x + y)[|x + y| - 1] == last;
      EvalsAtAppend(x, y', u, a);
      var l := if last.user == u && last.axis == a then [last] else [];
      assert EvalsAt(x + y, u, a) == EvalsAt(x + y', u, a) + l;
      assert EvalsAt(y, u, a) == EvalsAt(y', u, a) + l;
      assert (EvalsAt(x, u, a) + EvalsAt(y', u, a)) + l == EvalsAt(x, u, a) + (EvalsAt(y', u, a) + l);
    }
  }

  lemma {:induction false} EvalsOfAppend(x: seq<EvalRow>, y: seq<EvalRow>, u: UserId)
    ensures EvalsOf(x + y, u) == EvalsOf(x, u) + EvalsOf(y, u)
    decreases |y|
  {
    if y == [] {
      assert x + y == x;
    } else {
      var y' := y[..|y| - 1];
      var last := y[|y| - 1];
      assert (x + y)[..|x + y| - 1] == x + y' && (x + y)[|x + y| - 1] == last;
      EvalsOfAppend(x, y', u);
      var l := if last.user == u then [last] else [];
      assert EvalsOf(x + y, u) == EvalsOf(x + y', u) + l;
      assert EvalsOf(y, u) == EvalsOf(y', u) + l;
      assert (EvalsOf(x, u) + EvalsOf(y', u)) + l == EvalsOf(x, u) + (EvalsOf(y', u) + l);
    }
  }

  /** Deleting the rows of (u, a) empties that key and leaves the rows of
      every other key as they were, in the same order. */
  lemma {:induction false} DeleteEvalsAtKeys(rows: seq<EvalRow>, u: UserId, a: int, u': UserId, a': int)
    ensures EvalsAt(DeleteEvalsAt(rows, u, a), u', a') ==
      if u' == u && a' == a then [] else EvalsAt(rows, u', a')
  {
    if rows != [] {
      var init := rows[..|rows| - 1];
      var last := rows[|rows| - 1];
      DeleteEvalsAtKeys(init, u, a, u', a');
      EvalsAppend(DeleteEvalsAt(init, u, a), if last.user == u && last.axis == a then [] else [last], u', a');
    }
  }

  /** Deleting the rows of (u, a) leaves the rows of every other user. */
  lemma {:induction false} DeleteEvalsAtOthers(rows: seq<EvalRow>, u: UserId, a: int, v: UserId)
    requires v != u
    ensures EvalsOf(DeleteEvalsAt(rows, u, a), v) == EvalsOf(rows, v)
  {
    if rows != [] {
      var init := rows[..|rows| - 1];
      var last := rows[|rows| - 1];
      DeleteEvalsAtOthers(init, u, a, v);
      EvalsAppend(DeleteEvalsAt(init, u, a), if last.user == u && last.axis == a then [] else [last], v, a);
    }
  }

  /** Deleting the rows of (u, a) takes exactly those rows off u's count. */
  lemma {:induction false} DeleteEvalsAtCount(rows: seq<EvalRow>, u: UserId, a: int)
    ensures |EvalsOf(DeleteEvalsAt(rows, u, a), u)| == |EvalsOf(rows, u)| - |EvalsAt(rows, u, a)|
  {
    if rows != [] {
      var init := rows[..|rows| - 1];
      var last := rows[|rows| - 1];
      DeleteEvalsAtCount(init, u, a);
      EvalsAppend(DeleteEvalsAt(init, u, a), if last.user == u && last.axis == a then [] else [last], u, a);
    }
  }

  /** Deleting a user's rows leaves no row of that user and every other
      user's rows as they were. */
  lemma {:induction false} DeleteEvalsOfEffect(rows: seq<EvalRow>, u: UserId, v: UserId)
    ensures EvalsOf(DeleteEvalsOf(rows, u), v) == if v == u then [] else EvalsOf(rows, v)
  {
    if rows != [] {
      var init := rows[..|rows| - 1];
      var last := rows[|rows| - 1];
      DeleteEvalsOfEffect(init, u, v);
      var kept := if last.user == u then [] else [last];
      EvalsAppend(DeleteEvalsOf(init, u), kept, v, 0);
    }
  }

  /** The table holds at most one evaluation per user and axis. */
  ghost predicate OneEvaluationPerAxis(rows: seq<EvalRow>) {
    forall u, a :: |EvalsAt(rows, u, a)| <= 1
  }

  /** Deleting the rows of (u, a) and appending `row` for that key:
      the effect on one key and on one user. */
  lemma ReplaceEffect(rows: seq<EvalRow>, row: EvalRow, u': UserId, a': int)
    ensures var r := DeleteEvalsAt(rows, row.user, row.axis) + [row];
      && EvalsAt(r, u', a') == (if u' == row.user && a' == row.axis then [row] else EvalsAt(rows, u', a'))
      && (u' != row.user ==> EvalsOf(r, u') == EvalsOf(rows, u'))
      && |EvalsOf(r, row.user)| == |EvalsOf(rows, row.user)| - |EvalsAt(rows, row.user, row.axis)| + 1
  {
    var kept := DeleteEvalsAt(rows, row.user, row.axis);
    assert [row][..0] == [];
    DeleteEvalsAtKeys(rows, row.user, row.axis, u', a');
    if u' != row.user {
      DeleteEvalsAtOthers(rows, row.user, row.axis, u');
    }
    EvalsAppend(kept, [row], u', a');
    DeleteEvalsAtCount(rows, row.user, row.axis);
    EvalsAppend(kept, [row], row.user, row.axis);
  }

  /** The delete-then-insert of `evaluar_eje`: afterwards (u, a) holds
      exactly the new row, every other key keeps its rows, and the user's
      count grows by one only if the axis had no row. */
  function ReplaceEvaluation(rows: seq<EvalRow>, u: UserId, a: int, responses: seq<Response>, score: int)
    : (r: seq<EvalRow>)
    ensures EvalsAt(r, u, a) == [EvalRow(u, a, responses, score)]
    ensures forall u', a' :: (u', a') != (u, a) ==> EvalsAt(r, u', a') == EvalsAt(rows, u', a')
    ensures forall v :: v != u ==> EvalsOf(r, v) == EvalsOf(rows, v)
    ensures |EvalsOf(r, u)| == |EvalsOf(rows, u)| - |EvalsAt(rows, u, a)| + 1
    ensures EvalsOf(r, u) == DeleteEvalsAt(EvalsOf(rows, u), u, a) + [EvalRow(u, a, responses, score)]
    ensures OneEvaluationPerAxis(rows) ==> OneEvaluationPerAxis(r)
  {
    var row := EvalRow(u, a, responses, score);
    var r := DeleteEvalsAt(rows, u, a) + [row];
    ReplaceOrder(rows, row);
    ReplaceKeys(rows, row);
    ReplaceOthers(rows, row);
    ReplaceEffect(rows, row, u, a);
    r
  }

  /** The user's rows after a replacement: their earlier rows in their
      order, without those of the replaced axis, then the new row last. */
  lemma ReplaceOrder(rows: seq<EvalRow>, row: EvalRow)
    ensures EvalsOf(DeleteEvalsAt(rows, row.user, row.axis) + [row], row.user)
      == DeleteEvalsAt(EvalsOf(rows, row.user), row.user, row.axis) + [row]
  {
    var kept := DeleteEvalsAt(rows, row.user, row.axis);
    EvalsOfAppend(kept, [row], row.user);
    assert [row][..0] == [];
    DeleteEvalsAtOwnRows(rows, row.user, row.axis);
  }

  /** Deleting a key and then selecting its user is selecting the user and
      then deleting the key. */
  lemma {:induction false} DeleteEvalsAtOwnRows(rows: seq<EvalRow>, u: UserId, a: int)
    ensures EvalsOf(DeleteEvalsAt(rows, u, a), u) == DeleteEvalsAt(EvalsOf(rows, u), u, a)
  {
    if rows != [] {
      var init := rows[..|rows| - 1];
      var last := rows[|rows| - 1];
      DeleteEvalsAtOwnRows(init, u, a);
      var kept := if last.user == u && last.axis == a then [] else [last];
      assert DeleteEvalsAt(rows, u, a) == DeleteEvalsAt(init, u, a) + kept;
      EvalsOfAppend(DeleteEvalsAt(init, u, a), kept, u);
      assert kept[..0] == [];
      if last.user == u {
        var own := EvalsOf(init, u) + [last];
        assert EvalsOf(rows, u) == own;
        assert own[..|own| - 1] == EvalsOf(init, u) && own[|own| - 1] == last;
        assert DeleteEvalsAt(own, u, a) == DeleteEvalsAt(EvalsOf(init, u), u, a) + kept;
        assert EvalsOf(kept, u) == kept;
      } else {
        assert EvalsOf(rows, u) == EvalsOf(init, u);
        assert EvalsOf(kept, u) == [];
      }
    }
  }

  lemma ReplaceKeys(rows: seq<EvalRow>, row: EvalRow)
    ensures var r := DeleteEvalsAt(rows, row.user, row.axis) + [row];
      && (forall u', a' :: EvalsAt(r, u', a') == (if u' == row.user && a' == row.axis then [row] else EvalsAt(rows, u', a')))
      && (OneEvaluationPerAxis(rows) ==> OneEvaluationPerAxis(r))
  {
    var r := DeleteEvalsAt(rows, row.user, row.axis) + [row];
    forall u', a' ensures EvalsAt(r, u', a') == (if u' == row.user && a' == row.axis then [row] else EvalsAt(rows, u', a')) {
      ReplaceEffect(rows, row, u', a');
    }
  }

  lemma ReplaceOthers(rows: seq<EvalRow>, row: EvalRow)
    ensures forall v :: v != row.user ==>
      EvalsOf(DeleteEvalsAt(rows, row.user, row.axis) + [row], v) == EvalsOf(rows, v)
  {
    forall v | v != row.user
      ensures EvalsOf(DeleteEvalsAt(rows, row.user, row.axis) + [row], v) == EvalsOf(rows, v)
    {
      ReplaceEffect(rows, row, v, row.axis);
    }
  }

  datatype EvaluateError = Unauthorized | AxisError(cause: RecommendError)

  /** What `evaluar_eje` answers on success. */
  datatype Evaluated = Evaluated(score: int, recommendation: string)

  /** `evaluar_eje` for the user of the session (`None`: not logged in).
      The recommendation is computed before the database is touched, so
      an unknown axis raises and nothing is stored. */
  function EvaluateAxis(db: Db, session: Option<UserId>, axis: int, responses: seq<Response>, reply: Option<string>)
    : (out: (Db, Result<Evaluated, EvaluateError>))
    ensures session.None? ==> out == (db, Failure(Unauthorized))
    ensures session.Some? && !IsAxis(axis) ==> out == (db, Failure(AxisError(UnknownAxis(axis))))
    ensures session.Some? && IsAxis(axis) ==>
      && out.1.Success?
      && out.1.value.score == Score(responses)
      && out.1.value.recommendation == Recommend(axis, responses, Some(Score(responses)), reply).value
      && out.0.users == db.users && out.0.goals == db.goals
      && out.0.evaluations == ReplaceEvaluation(db.evaluations, session.value, axis, responses, Score(responses))
      && EvalsAt(out.0.evaluations, session.value, axis) == [EvalRow(session.value, axis, responses, Score(responses))]
      && (forall u', a' :: (u', a') != (session.value, axis) ==>
            EvalsAt(out.0.evaluations, u', a') == EvalsAt(db.evaluations, u', a'))
      && EvalsOf(out.0.evaluations, session.value)
           == DeleteEvalsAt(EvalsOf(db.evaluations, session.value), session.value, axis)
              + [EvalRow(session.value, axis, responses, Score(responses))]
      && (forall v :: v != session.value ==> EvalsOf(out.0.evaluations, v) == EvalsOf(db.evaluations, v))
  {
    if session.None? then (db, Failure(Unauthorized))
    else
      var u := session.value;
      var score := Score(responses);
      match Recommend(axis, responses, Some(score), reply)
      case Failure(e) => (db, Failure(AxisError(e)))
      case Success(text) =>
        (db.(evaluations := ReplaceEvaluation(db.evaluations, u, axis, responses, score)),
         Success(Evaluated(score, text)))
  }

  /** Submitting the same axis twice leaves one row, holding the second
      submission. */
  lemma ResubmitKeepsLatest(db: Db, u: UserId, axis: int, rs1: seq<Response>, rs2: seq<Response>, reply1: Option<string>, reply2: Option<string>)
    requires IsAxis(axis)
    ensures var db1 := EvaluateAxis(db, Some(u), axis, rs1, reply1).0;
      var db2 := EvaluateAxis(db1, Some(u), axis, rs2, reply2).0;
      EvalsAt(db2.evaluations, u, axis) == [EvalRow(u, axis, rs2, Score(rs2))]
      && |EvalsOf(db2.evaluations, u)| == |EvalsOf(db1.evaluations, u)|
  {
  }

  /** The goals rows of one user. */
  function GoalsOf(rows: seq<GoalsRow>, u: UserId): (r: seq<GoalsRow>)
    ensures |r| <= |rows|
    ensures forall k :: 0 <= k < |r| ==> r[k].user == u
  {
    if rows == [] then []
    else GoalsOf(rows[..|rows| - 1], u) + (if rows[|rows| - 1].user == u then [rows[|rows| - 1]] else [])
  }

  /** `DELETE FROM objetivos_negocio WHERE usuario_id = u`. */
  function DeleteGoalsOf(rows: seq<GoalsRow>, u: UserId): (r: seq<GoalsRow>)
    ensures |r| <= |rows|
  {
    if rows == [] then []
    else
      var last := rows[|rows| - 1];
      DeleteGoalsOf(rows[..|rows| - 1], u) + (if last.user == u then [] else [last])
  }

  /** `UPDATE objetivos_negocio SET ... WHERE usuario_id = row.user`:
      every row of that user becomes `row`. */
  function UpdateGoalsOf(rows: seq<GoalsRow>, row: GoalsRow): (r: seq<GoalsRow>)
    ensures |r| == |rows|
  {
    if rows == [] then []
    else
      var last := rows[|rows| - 1];
      UpdateGoalsOf(rows[..|rows| - 1], row) + [if last.user == row.user then row else last]
  }

  lemma {:induction false} GoalsAppend(x: seq<GoalsRow>, y: seq<GoalsRow>, u: UserId)
    ensures GoalsOf(x + y, u) == GoalsOf(x, u) + GoalsOf(y, u)
    decreases |y|
  {
    if y == [] {
      assert x + y == x;
    } else {
      var y' := y[..|y| - 1];
      assert (x + y)[..|x + y| - 1] == x + y';
      GoalsAppend(x, y', u);
    }
  }

  lemma {:induction false} DeleteGoalsOfEffect(rows: seq<GoalsRow>, u: UserId, v: UserId)
    ensures GoalsOf(DeleteGoalsOf(rows, u), v) == if v == u then [] else GoalsOf(rows, v)
  {
    if rows != [] {
      var init := rows[..|rows| - 1];
      var last := rows[|rows| - 1];
      DeleteGoalsOfEffect(init, u, v);
      GoalsAppend(DeleteGoalsOf(init, u), if last.user == u then [] else [last], v);
    }
  }

  /** The update leaves every other user's rows alone. */
  lemma {:induction false} UpdateGoalsOfOthers(rows: seq<GoalsRow>, row: GoalsRow, v: UserId)
    requires v != row.user
    ensures GoalsOf(UpdateGoalsOf(rows, row), v) == GoalsOf(rows, v)
  {
    if rows != [] {
      var init := rows[..|rows| - 1];
      var last := rows[|rows| - 1];
      UpdateGoalsOfOthers(init, row, v);
      GoalsAppend(UpdateGoalsOf(init, row), [if last.user == row.user then row else last], v);
    }
  }

  /** The update rewrites every row of the user, keeping their number. */
  lemma {:induction false} UpdateGoalsOfOwn(rows: seq<GoalsRow>, row: GoalsRow)
    ensures |GoalsOf(UpdateGoalsOf(rows, row), row.user)| == |GoalsOf(rows, row.user)|
    ensures forall k :: 0 <= k < |GoalsOf(UpdateGoalsOf(rows, row), row.user)| ==>
      GoalsOf(UpdateGoalsOf(rows, row), row.user)[k] == row
  {
    if rows != [] {
      var init := rows[..|rows| - 1];
      var last := rows[|rows| - 1];
      UpdateGoalsOfOwn(init, row);
      GoalsAppend(UpdateGoalsOf(init, row), [if last.user == row.user then row else last], row.user);
    }
  }

  /** The write of `guardar_objetivos`: update the user's rows when there
      are any, else insert one. Afterwards every row of the user holds the
      new goals, there is at least one, and no other user's rows change. */
  function UpsertGoals(rows: seq<GoalsRow>, row: GoalsRow): (r: seq<GoalsRow>)
    ensures |GoalsOf(r, row.user)| == if GoalsOf(rows, row.user) == [] then 1 else |GoalsOf(rows, row.user)|
    ensures forall k :: 0 <= k < |GoalsOf(r, row.user)| ==> GoalsOf(r, row.user)[k] == row
    ensures forall v :: v != row.user ==> GoalsOf(r, v) == GoalsOf(rows, v)
  {
    var u := row.user;
    if GoalsOf(rows, u) != [] then
      var r := UpdateGoalsOf(rows, row);
      UpdateGoalsOfOwn(rows, row);
      forall v | v != u ensures GoalsOf(r, v) == GoalsOf(rows, v) {
        UpdateGoalsOfOthers(rows, row, v);
      }
      r
    else
      assert [row][..0] == [];
      GoalsAppend(rows, [row], u);
      forall v | v != u ensures GoalsOf(rows + [row], v) == GoalsOf(rows, v) {
        GoalsAppend(rows, [row], v);
      }
      rows + [row]
  }

  datatype SaveGoalsError = NotLoggedIn | FirstGoalRequired

  /** `guardar_objetivos`: the goals are read with `''` for a missing key
      and stripped; the first one must be non-empty; then they are
      upserted for the user of the session. */
  function SaveGoals(db: Db, session: Option<UserId>, goal1: Option<string>, goal2: Option<string>, goal3: Option<string>)
    : (out: (Db, Result<(), SaveGoalsError>))
    ensures out.1.Failure? ==> out.0 == db
    ensures session.None? ==> out.1 == Failure(NotLoggedIn)
    ensures session.Some? ==> (out.1 == Failure(FirstGoalRequired) <==> PyStrip(goal1.GetOr("")) == [])
    ensures session.Some? && PyStrip(goal1.GetOr("")) != [] ==> out.1.Success?
    ensures out.1.Success? ==> out.0 == db.(goals := UpsertGoals(db.goals,
      GoalsRow(session.value, PyStrip(goal1.GetOr("")), PyStrip(goal2.GetOr("")), PyStrip(goal3.GetOr("")))))
  {
    if session.None? then (db, Failure(NotLoggedIn))
    else
      var first := PyStrip(goal1.GetOr(""));
      if first == [] then (db, Failure(FirstGoalRequired))
      else
        var row := GoalsRow(session.value, first, PyStrip(goal2.GetOr("")), PyStrip(goal3.GetOr("")));
        (db.(goals := UpsertGoals(db.goals, row)), Success(()))
  }

  /** `eliminar_usuario`: the user's evaluations, goals and user row go;
      nothing of any other user changes. */
  function DeleteUser(db: Db, u: UserId): (r: Db)
    ensures u !in r.users && EvalsOf(r.evaluations, u) == [] && GoalsOf(r.goals, u) == []
    ensures forall v :: v != u ==>
      && (v in r.users <==> v in db.users)
      && (v in db.users ==> r.users[v] == db.users[v])
      && EvalsOf(r.evaluations, v) == EvalsOf(db.evaluations, v)
      && GoalsOf(r.goals, v) == GoalsOf(db.goals, v)
  {
    var r := Db(db.users - {u}, DeleteEvalsOf(db.evaluations, u), DeleteGoalsOf(db.goals, u));
    forall v ensures EvalsOf(r.evaluations, v) == (if v == u then [] else EvalsOf(db.evaluations, v))
      && GoalsOf(r.goals, v) == (if v == u then [] else GoalsOf(db.goals, v))
    {
      DeleteEvalsOfEffect(db.evaluations, u, v);
      DeleteGoalsOfEffect(db.goals, u, v);
    }
    r
  }

  /** Why a report cannot be produced: the error pages of the routes. */
  datatype GateError = UserNotFound | NoEvaluations | TooFewEvaluations(count: nat)

  /** The number of completed axes a report needs. */
  const MinEvaluations := 3

  /** The checks in front of the client report and the consulting plan:
      the user must exist and have at least three evaluations; the answer
      is that user's evaluations. */
  function ReportGate(db: Db, u: UserId): (r: Result<seq<EvalRow>, GateError>)
    ensures r.Success? <==> u in db.users && |EvalsOf(db.evaluations, u)| >= MinEvaluations
    ensures r.Success? ==> r.value == EvalsOf(db.evaluations, u)
    ensures u !in db.users ==> r == Failure(UserNotFound)
    ensures r == Failure(NoEvaluations) <==> u in db.users && EvalsOf(db.evaluations, u) == []
    ensures u in db.users && 0 < |EvalsOf(db.evaluations, u)| < MinEvaluations ==>
      r == Failure(TooFewEvaluations(|EvalsOf(db.evaluations, u)|))
  {
    if u !in db.users then Failure(UserNotFound)
    else
      var evals := EvalsOf(db.evaluations, u);
      if evals == [] then Failure(NoEvaluations)
      else if |evals| < MinEvaluations then Failure(TooFewEvaluations(|evals|))
      else Success(evals)
  }

  /** Why the consulting plan cannot be produced: the gate refused, or the
      user's size is NULL, on which the size test of the plan raises. */
  datatype PlanError = Refused(cause: GateError) | MissingCompanySize

  /** `generar_plan_consultoria`: the gate, then the plan for the user's
      size and evaluations. The plan's stage follows the user's average
      score, and its three priorities are the user's three lowest-scoring
      evaluations, earliest first among equal scores. */
  function ConsultingPlan(db: Db, u: UserId): (r: Result<Plan, PlanError>)
    ensures ReportGate(db, u).Failure? ==> r == Failure(Refused(ReportGate(db, u).error))
    ensures ReportGate(db, u).Success? && db.users[u].companySize.None? ==> r == Failure(MissingCompanySize)
    ensures r.Success? <==>
      u in db.users && |EvalsOf(db.evaluations, u)| >= MinEvaluations && db.users[u].companySize.Some?
    ensures r.Success? ==>
      var evals := EvalsOf(db.evaluations, u);
      && r.value.size == NormalizeSize(db.users[u].companySize.value)
      && (r.value.stage == Stage.Initial <==> 2 * SumScores(evals) <= 3 * |evals|)
      && (r.value.stage == Optimisation <==> 3 * |evals| < SumScores(evals))
      && r.value.engagement == EngagementFor(r.value.size, r.value.stage)
      && r.value.schedule == ScheduleFor(r.value.size, r.value.stage)
      && |r.value.critical| == 3 && SortedByScore(r.value.critical)
      && multiset(r.value.critical) <= multiset(evals)
      && (forall y, z :: y in multiset(evals) - multiset(r.value.critical) && z in r.value.critical ==> z.score <= y.score)
      && (forall v :: IsPrefix(WithScore(r.value.critical, v), WithScore(evals, v)))
      && (forall k :: 0 <= k < 3 ==> r.value.critical[k].user == u)
  {
    match ReportGate(db, u)
    case Failure(e) => Failure(Refused(e))
    case Success(evals) =>
      if db.users[u].companySize.None? then Failure(MissingCompanySize)
      else
        var p := PlanFor(db.users[u].companySize.value, evals);
        PicksAreOwnRows(p.critical, evals, u);
        Success(p)
  }

  /** Rows drawn from one user's evaluations belong to that user. */
  lemma PicksAreOwnRows(picks: seq<EvalRow>, rows: seq<EvalRow>, u: UserId)
    requires multiset(picks) <= multiset(rows)
    requires forall k :: 0 <= k < |rows| ==> rows[k].user == u
    ensures forall k :: 0 <= k < |picks| ==> picks[k].user == u
  {
    forall k | 0 <= k < |picks|
      ensures picks[k].user == u
    {
      assert picks[k] in multiset(rows);
    }
  }
}

=== FILE: tables.dfy ===
/** Rows of the three tables of the application's database: `usuarios`,
    `evaluaciones` and `objetivos_negocio`. Timestamps, the stored PDF path
    and the autoincrement row ids are not modelled. */
module Tables {
  import opened Wrappers
  import opened Scoring

  type UserId = int

  /** A registered company (`usuarios`). The size column was added to the
      table later and login stores whatever the form sent, so it may be
      NULL (`None`). */
  datatype UserRow = UserRow(email: string, companyName: string, companyType: string, companySize: Option<string>)

  /** One scored axis of one user (`evaluaciones`); the responses are the
      submitted list that the application stores as JSON. */
  datatype EvalRow = EvalRow(user: UserId, axis: int, responses: seq<Response>, score: int)

  /** The three business goals of one user (`objetivos_negocio`). */
  datatype GoalsRow = GoalsRow(user: UserId, first: string, second: string, third: string)
}

=== FILE: text.dfy ===
/** String primitives whose exact behaviour matters to the decisions of the
    application: Python's `str.strip` and `in`, JavaScript's `trim()`, `\s`
    and `length`. Strings are sequences of Unicode scalar values. */
module Text {

  /** Python's `str.isspace` for one character: the code points Python
      strips with `str.strip()` when no argument is given. Within ASCII
      these are the blank, the controls tab to carriage return and the
      four separators 0x1C-0x1F. */
  predicate IsPySpace(c: char) {
    var n := c as int;
    || 0x09 <= n <= 0x0D
    || 0x1C <= n <= 0x20
    || n == 0x85 || n == 0xA0 || n == 0x1680
    || 0x2000 <= n <= 0x200A
    || n == 0x2028 || n == 0x2029 || n == 0x202F || n == 0x205F || n == 0x3000
  }

  /** ECMAScript WhiteSpace and LineTerminator: the class `\s` of a regular
      expression and the characters `String.prototype.trim` removes. The
      set differs from Python's only in the byte order mark, which
      JavaScript treats as a space, and 0x1C-0x1F and 0x85, which it does
      not. */
  predicate IsJsSpace(c: char) {
    var n := c as int;
    || 0x09 <= n <= 0x0D
    || n == 0x20 || n == 0xA0 || n == 0x1680
    || 0x2000 <= n <= 0x200A
    || n == 0x2028 || n == 0x2029 || n == 0x202F || n == 0x205F || n == 0x3000
    || n == 0xFEFF
  }

  /** The whitespace set of a language. */
  datatype Whitespace = Python | JavaScript

  predicate IsSpace(w: Whitespace, c: char) {
    match w
    case Python => IsPySpace(c)
    case JavaScript => IsJsSpace(c)
  }

  /** The two whitespace sets: within ASCII, Python's holds the blank, the
      controls tab to carriage return and the separators 0x1C-0x1F; the
      JavaScript set is Python's without 0x1C-0x1F and 0x85, plus the byte
      order mark 0xFEFF. */
  lemma SpaceSets(c: char)
    ensures c as int < 0x80 ==>
      (IsPySpace(c) <==> c == ' ' || '\t' <= c <= '\r' || 0x1C <= c as int <= 0x1F)
    ensures IsJsSpace(c) <==>
      (IsPySpace(c) && !(0x1C <= c as int <= 0x1F) && c as int != 0x85) || c as int == 0xFEFF
  {
  }

  /** Neither the first nor the last character of `s` is whitespace. */
  predicate Unpadded(s: string, w: Whitespace) {
    s == [] || (!IsSpace(w, s[0]) && !IsSpace(w, s[|s| - 1]))
  }

  /** `r` sits at position `i` of `s`, and everything in `s` before and
      after it is whitespace. */
  predicate SpaceAround(s: string, r: string, i: int, w: Whitespace) {
    && 0 <= i <= |s| - |r|
    && s[i..i + |r|] == r
    && (forall k :: 0 <= k < i ==> IsSpace(w, s[k]))
    && (forall k :: i + |r| <= k < |s| ==> IsSpace(w, s[k]))
  }

  /** `r` ends `s`, and everything in `s` before it is whitespace. */
  predicate SpaceBefore(s: string, r: string, w: Whitespace) {
    && |r| <= |s| && r == s[|s| - |r|..]
    && forall k :: 0 <= k < |s| - |r| ==> IsSpace(w, s[k])
  }

  /** `r` starts `s`, and everything in `s` after it is whitespace. */
  predicate SpaceAfter(s: string, r: string, w: Whitespace) {
    && |r| <= |s| && r == s[..|r|]
    && forall k :: |r| <= k < |s| ==> IsSpace(w, s[k])
  }

  /** Removes the leading whitespace. */
  function TrimStart(s: string, w: Whitespace): (r: string)
    ensures SpaceBefore(s, r, w)
    ensures r == [] || !IsSpace(w, r[0])
    decreases |s|
  {
    if s != [] && IsSpace(w, s[0]) then TrimStart(s[1..], w) else s
  }

  /** Removes the trailing whitespace. */
  function TrimEnd(s: string, w: Whitespace): (r: string)
    ensures SpaceAfter(s, r, w)
    ensures r == [] || !IsSpace(w, r[|r| - 1])
    decreases |s|
  {
    if s != [] && IsSpace(w, s[|s| - 1]) then TrimEnd(s[..|s| - 1], w) else s
  }

  /** Python's `s.strip()`: `s` with its leading and trailing whitespace
      removed and nothing else, so a piece of `s` that neither starts nor
      ends with whitespace, empty exactly when `s` is all whitespace. */
  function PyStrip(s: string): (r: string)
    ensures |r| <= |s| && Contains(s, r)
    ensures Unpadded(r, Python)
    ensures exists i :: SpaceAround(s, r, i, Python)
    ensures r == [] <==> forall k :: 0 <= k < |s| ==> IsSpace(Python, s[k])
  {
    StripFacts(s, Python);
    TrimEnd(TrimStart(s, Python), Python)
  }

  /** JavaScript's `s.trim()`: `s` with its leading and trailing whitespace
      removed and nothing else, so a piece of `s` that neither starts nor
      ends with whitespace, empty exactly when `s` is all whitespace. */
  function JsTrim(s: string): (r: string)
    ensures |r| <= |s| && Contains(s, r)
    ensures Unpadded(r, JavaScript)
    ensures exists i :: SpaceAround(s, r, i, JavaScript)
    ensures r == [] <==> forall k :: 0 <= k < |s| ==> IsSpace(JavaScript, s[k])
  {
    StripFacts(s, JavaScript);
    TrimEnd(TrimStart(s, JavaScript), JavaScript)
  }

  /** Trimming both ends leaves a piece of `s` that neither starts nor ends
      with a space, and nothing exactly when every character is a space. */
  lemma StripFacts(s: string, w: Whitespace)
    ensures var r := TrimEnd(TrimStart(s, w), w);
      && Contains(s, r)
      && Unpadded(r, w)
      && (exists i :: SpaceAround(s, r, i, w))
      && (r == [] <==> forall k :: 0 <= k < |s| ==> IsSpace(w, s[k]))
  {
    StripIsPiece(s, w);
    StripIsUnpadded(s, w);
    SpaceAroundOfParts(s, TrimStart(s, w), TrimEnd(TrimStart(s, w), w), w);
    StripEmptyIffAllSpace(s, w);
  }

  /** The stripped string occurs in `s`. */
  lemma StripIsPiece(s: string, w: Whitespace)
    ensures Contains(s, TrimEnd(TrimStart(s, w), w))
  {
    var t := TrimStart(s, w);
    var r := TrimEnd(t, w);
    assert s[|s| - |t|..][..|r|] == r;
    assert OccursAt(s, r, |s| - |t|);
    ContainsIffOccurs(s, r);
  }

  /** Whitespace cut from the front of `s`, then from the back of the rest
      `t`, leaves `r` surrounded by whitespace in `s`. */
  lemma SpaceAroundOfParts(s: string, t: string, r: string, w: Whitespace)
    requires SpaceBefore(s, t, w) && SpaceAfter(t, r, w)
    ensures SpaceAround(s, r, |s| - |t|, w)
  {
    var i := |s| - |t|;
    assert s[i..i + |r|] == r;
    forall k | i + |r| <= k < |s|
      ensures IsSpace(w, s[k])
    {
      assert s[k] == t[k - i];
    }
  }

  /** The stripped string neither starts nor ends with a space. */
  lemma StripIsUnpadded(s: string, w: Whitespace)
    ensures Unpadded(TrimEnd(TrimStart(s, w), w), w)
  {
    var t := TrimStart(s, w);
    var r := TrimEnd(t, w);
    if r != [] {
      assert !IsSpace(w, t[0]) && r[0] == t[0];
      assert !IsSpace(w, r[|r| - 1]);
    }
  }

  /** Stripping leaves nothing exactly when `s` is all spaces. */
  lemma StripEmptyIffAllSpace(s: string, w: Whitespace)
    ensures TrimEnd(TrimStart(s, w), w) == [] <==> forall k :: 0 <= k < |s| ==> IsSpace(w, s[k])
  {
    var t := TrimStart(s, w);
    var r := TrimEnd(t, w);
    if r == [] {
      assert t == [];
    } else {
      assert !IsSpace(w, s[|s| - |t|]);
    }
  }

  /** An unpadded piece with only whitespace around it is empty exactly
      when `s` is all whitespace. */
  lemma SpaceAroundEmpty(s: string, r: string, i: int, w: Whitespace)
    requires SpaceAround(s, r, i, w) && Unpadded(r, w)
    ensures r == [] <==> forall k :: 0 <= k < |s| ==> IsSpace(w, s[k])
  {
    if r != [] {
      assert s[i] == r[0];
    }
  }

  /** Removing surrounding whitespace has one result: two unpadded pieces
      of `s` with only whitespace around them are equal. So `PyStrip` and
      `JsTrim` are determined by their contracts. */
  lemma SpaceAroundUnique(s: string, r1: string, i1: int, r2: string, i2: int, w: Whitespace)
    requires SpaceAround(s, r1, i1, w) && Unpadded(r1, w)
    requires SpaceAround(s, r2, i2, w) && Unpadded(r2, w)
    ensures r1 == r2
  {
    SpaceAroundEmpty(s, r1, i1, w);
    SpaceAroundEmpty(s, r2, i2, w);
    if r1 != [] && r2 != [] {
      assert s[i1] == r1[0] && s[i2] == r2[0];
      assert i1 == i2;
      assert s[i1 + |r1| - 1] == r1[|r1| - 1] && s[i2 + |r2| - 1] == r2[|r2| - 1];
      assert |r1| == |r2|;
    }
  }

  /** Stripping a string that neither starts nor ends with a space gives
      it back unchanged. */
  lemma StripUnpadded(s: string, w: Whitespace)
    requires s != [] && !IsSpace(w, s[0]) && !IsSpace(w, s[|s| - 1])
    ensures TrimEnd(TrimStart(s, w), w) == s
  {
    assert TrimStart(s, w) == s;
  }

  /** Stripping leaves a string unchanged when it neither starts nor ends
      with whitespace. */
  lemma UnpaddedStripsToItself(s: string, w: Whitespace)
    ensures Unpadded(s, w) ==> TrimEnd(TrimStart(s, w), w) == s
  {
    if s != [] && Unpadded(s, w) {
      StripUnpadded(s, w);
    }
  }

  /** JavaScript's `s.length`: the number of UTF-16 code units, so a
      character outside the Basic Multilingual Plane counts twice. */
  function Utf16Length(s: string): (n: nat)
    ensures |s| <= n <= 2 * |s|
    ensures n == |s| <==> forall k :: 0 <= k < |s| ==> s[k] as int < 0x10000
    ensures n == 2 * |s| <==> forall k :: 0 <= k < |s| ==> s[k] as int >= 0x10000
  {
    if s == [] then 0
    else (if s[|s| - 1] as int >= 0x10000 then 2 else 1) + Utf16Length(s[..|s| - 1])
  }

  /** Whether `p` is a prefix of `s`. */
  predicate StartsWith(s: string, p: string) {
    |p| <= |s| && s[..|p|] == p
  }

  /** Python's substring test `t in s`. */
  predicate Contains(s: string, t: string)
    decreases |s|
  {
    StartsWith(s, t) || (s != [] && Contains(s[1..], t))
  }

  /** `t` occurs in `s` starting at position `i`. */
  predicate OccursAt(s: string, t: string, i: int) {
    0 <= i <= |s| - |t| && s[i..i + |t|] == t
  }

  /** `t in s` holds exactly when `t` occurs at some position of `s`. */
  lemma {:induction false} ContainsIffOccurs(s: string, t: string)
    ensures Contains(s, t) <==> exists i :: OccursAt(s, t, i)
    decreases |s|
  {
    if s == [] {
      if t == [] {
        assert OccursAt(s, t, 0);
      }
      if exists i :: OccursAt(s, t, i) {
        var i :| OccursAt(s, t, i);
        assert i == 0;
      }
    } else {
      ContainsIffOccurs(s[1..], t);
      if StartsWith(s, t) {
        assert OccursAt(s, t, 0);
      }
      if Contains(s[1..], t) {
        var i :| OccursAt(s[1..], t, i);
        assert s[1..][i..i + |t|] == s[i + 1..i + 1 + |t|];
        assert OccursAt(s, t, i + 1);
      }
      if !StartsWith(s, t) && exists i :: OccursAt(s, t, i) {
        var i :| OccursAt(s, t, i);
        assert i != 0;
        assert s[1..][i - 1..i - 1 + |t|] == s[i..i + |t|];
        assert OccursAt(s[1..], t, i - 1);
      }
    }
  }

  /** If `s` contains `t`, it contains every prefix of `t`; so testing for
      a word and then for one of its prefixes only ever adds the prefix. */
  lemma {:induction false} ContainsPrefix(s: string, t: string, p: string)
    requires Contains(s, t) && StartsWith(t, p)
    ensures Contains(s, p)
    decreases |s|
  {
    if !StartsWith(s, t) {
      ContainsPrefix(s[1..], t, p);
    } else {
      assert s[..|p|] == t[..|p|];
    }
  }

  /** A string never contains a longer one. */
  lemma {:induction false} NotContainsLonger(s: string, t: string)
    requires |s| < |t|
    ensures !Contains(s, t)
    decreases |s|
  {
    if s != [] {
      NotContainsLonger(s[1..], t);
    }
  }

  /** A string never contains a word whose first character it lacks. */
  lemma {:induction false} NotContainsFirstChar(s: string, t: string)
    requires |t| > 0 && t[0] !in s
    ensures !Contains(s, t)
    decreases |s|
  {
    if s != [] {
      assert s[0] != t[0];
      NotContainsFirstChar(s[1..], t);
    }
  }

  /** Number of occurrences of `c` in `s`. */
  function CountChar(s: string, c: char): (n: nat)
    ensures n <= |s|
    ensures n == 0 <==> forall k :: 0 <= k < |s| ==> s[k] != c
  {
    if s == [] then 0
    else (if s[|s| - 1] == c then 1 else 0) + CountChar(s[..|s| - 1], c)
  }

  lemma {:induction false} CountCharAppend(a: string, b: string, c: char)
    ensures CountChar(a + b, c) == CountChar(a, c) + CountChar(b, c)
    decreases |b|
  {
    if b == [] {
      assert a + b == a;
    } else {
      var b' := b[..|b| - 1];
      assert (a + b)[..|a + b| - 1] == a + b';
      CountCharAppend(a, b', c);
    }
  }

  /** Position of the first `c` in `s`, or `|s|` when there is none. */
  function IndexOf(s: string, c: char): (i: nat)
    ensures i <= |s|
    ensures i < |s| ==> s[i] == c
    ensures forall k :: 0 <= k < i ==> s[k] != c
  {
    if s == [] then 0
    else if s[0] == c then 0
    else 1 + IndexOf(s[1..], c)
  }
}

=== FILE: wrappers.dfy ===
/** The wrappers used across the model: an optional value
    (an absent JSON key, an unavailable generator) and a success-or-error
    result (the HTTP error answers and the exceptions of the application). */
module Wrappers {

  datatype Option<+T> = None | Some(value: T) {

    /** The wrapped value, or `default` when absent (Python's `dict.get(key, default)`). */
    function GetOr(default: T): T {
      match this
      case Some(v) => v
      case None => default
    }
  }

  datatype Result<+T, +E> = Success(value: T) | Failure(error: E)
}
